=== FILE: README.md ===
# Huffman codec: a Dafny model

This project models the Huffman compression core of a browser-based file
compressor (`src/lib/huffman.ts`).

Compressing a text works in these steps:

1. Count the occurrences of each symbol in a JavaScript `Map`.
2. Put one leaf per symbol into a binary min-heap keyed by count.
3. Repeatedly merge the two lightest trees until one tree is left. A text with a single distinct symbol gets a synthetic root with only a left child.
4. Walk the tree depth-first to assign each symbol a code: '0' for the left child, '1' for the right child.
5. Concatenate the codes of the symbols of the text.

Decompressing walks the tree bit by bit and emits a symbol at each leaf.

For storage, the bit string is padded to whole bytes, read as bytes and passed through `btoa`. Unpacking reverses this with `atob`, `toString(2)`, `padStart` and `substr`. The facade `compressFile` combines these steps and adds the compression ratio and the savings percentage.

The model keeps the source's observable details:

- **Iteration order.** `Map` iteration order is insertion order. It fixes the enqueue order, and through that the heap's tie-breaking and the exact tree.
- **Heap comparisons.** The heap compares exactly as `heapifyUp` and `heapifyDown` do (`<=` and `<`, left child on a tie).
- **Decoder errors.** The decoder treats every character other than '0' as a move right. It throws on a missing child, modelled as `None`. It silently drops bits left over after the last complete codeword.
- **Instance state.** `compress` keeps its tree and its table in the instance. An empty text leaves both untouched.

Modules:

| file | module | models |
|---|---|---|
| optional.dfy | `Optional` | `Option` for `null`, `undefined` and thrown errors |
| ordered_map.dfy | `OrderedMap` | a JavaScript `Map` as an insertion-ordered association list |
| tree.dfy | `HuffmanTree` | `HuffmanNode`, and the decoder's cursor moves |
| priority_queue.dfy | `PriorityQueue` | the binary min-heap of trees |
| forest.dfy | `Forest` | order-independent summaries of a heap's contents |
| frequency.dfy | `Frequency` | `buildFrequencyTable` |
| tree_builder.dfy | `TreeBuilder` | `buildHuffmanTree` |
| codes.dfy | `CodeTable` | `generateCodes` |
| codec.dfy | `Codec` | `compress` and `decompress` |
| bits.dfy | `Bits` | bit strings, `parseInt(s, 2)`, `toString(2)`, `padStart` |
| base64.dfy | `Base64` | `btoa` and `atob`, modelled on the bit level |
| packing.dfy | `Packing` | `binaryToBase64` and `base64ToBinary` |
| facade.dfy | `Facade` | `compressFile` and `CompressionResult` |

### `btoa` and `atob`

- `btoa` follows section 4 of RFC 4648: the alphabet of its table 1, with '=' padding.
- `atob` follows the forgiving-base64 decode of the WHATWG Infra standard:
  - ASCII whitespace is removed;
  - when the length is a multiple of four, one or two trailing '=' are removed;
  - a length that is one more than a multiple of four fails;
  - a character outside the alphabet fails;
  - bits that do not fill a byte are dropped.

### Behaviour worth knowing

- **Tie order.** Equal weights do not leave the queue in insertion order: three equal trees enqueued as a, b, c come out as a, then c (`PriorityQueue.TiesLeaveOutOfOrder`). The tree is still fixed for a given table, which is all that the round trip needs.
- **Decoder errors.** `decompress` reports no error for a truncated or corrupted bit string:
  - bits that stop inside a codeword are dropped (`Codec.TrailingBitsDropped`);
  - characters other than '0' and '1' are read as '1' (`Codec.OtherCharactersGoRight`).

  It only throws when a move finds no child, e.g. a '1' on the one-symbol tree (`Codec.SingleSymbolRejectsOne`).
- **Queue size.** `PriorityQueue.size()` is the length of the sequence that holds the heap.

## Model

| member | source | states |
|---|---|---|
| OrderedMap.Set | src/lib/huffman.ts:89 | after `set`, the key reads the new value and every other key reads what it read before; a map without repeated keys keeps none |
| OrderedMap.SetKeys | src/lib/huffman.ts:89 | `set` on a present key keeps the key order; `set` on a new key appends it as the last key |
| OrderedMap.GetDefined | src/lib/huffman.ts:89 | `get`, modelled by `OrderedMap.Get`, answers with a value exactly for the keys present |
| Frequency.BuildFrequencyTable | src/lib/huffman.ts:86-92 | the table has no repeated key and maps exactly the symbols of the text, each to its number of occurrences |
| Frequency.Bump | src/lib/huffman.ts:89 | the symbol's count goes up by one from 0 or its old value, every other count is kept, and no key is repeated; `CountStep` and `TotalAfterBump` state what one loop iteration does to the counts and their total |
| Frequency.CountStep | src/lib/huffman.ts:88-90 | one loop iteration turns the counts of a prefix into the counts of the prefix extended by one symbol |
| Frequency.FrequencyEntries | src/lib/huffman.ts:86-92 | the keys are the symbols of the text; every count is that symbol's number of occurrences and at least 1 |
| Frequency.TotalIsLength | src/lib/huffman.ts:86-92 | the counts add up to the length of the text |
| PriorityQueue.SiftUp | src/lib/huffman.ts:43-51 | from a heap out of order only between `i` and its parent, the result is a heap holding the same trees |
| PriorityQueue.SiftDown | src/lib/huffman.ts:53-69 | from a heap out of order only between `i` and its children, the result is a heap holding the same trees |
| PriorityQueue.Enqueue | src/lib/huffman.ts:24-27 | a heap stays a heap and holds the old trees plus the new one |
| PriorityQueue.Dequeue | src/lib/huffman.ts:29-37 | an empty heap gives `null`; otherwise the result is a tree no heavier than any in the heap, and the rest is a heap of the other trees |
| PriorityQueue.RootIsMinimal | src/lib/huffman.ts:29-37 | in a heap the first tree is no heavier than any other |
| PriorityQueue.EnqueueNoLighter | src/lib/huffman.ts:43-51 | a tree no lighter than its future parent stays where `push` put it |
| PriorityQueue.TiesLeaveOutOfOrder | src/lib/huffman.ts:24-69 | three equal-weight trees enqueued as a, b, c are dequeued as a, then c |
| Forest.ForestPermutation | src/lib/huffman.ts:17-78 | the leaves, symbols and total weight held by a queue do not depend on the order of its trees |
| Forest.EnqueueKeepsForest | src/lib/huffman.ts:24-27 | enqueueing a tree adds exactly its leaves, symbols and weight to the queue's |
| TreeBuilder.LeafQueue | src/lib/huffman.ts:99-101 | the queue is a heap of one leaf per table entry, holding exactly the table's pairs, keys and total count |
| TreeBuilder.MergeAll | src/lib/huffman.ts:112-121 | merging ends with one tree, or none for an empty queue; leaves, symbols and total weight are kept; with two or more trees the last one is an internal node |
| TreeBuilder.BuildHuffmanTree | src/lib/huffman.ts:95-124 | `null` exactly for an empty table; a one-entry table gives a root whose only child is the entry's leaf |
| TreeBuilder.BuildHuffmanTreeShape | src/lib/huffman.ts:103-123 | the root is an internal node, every internal node weighs its children together, and with two or more entries every internal node has two children |
| TreeBuilder.BuildHuffmanTreeLeaves | src/lib/huffman.ts:95-124 | the leaves of the tree are the table's entries, and the root weighs the sum of the counts |
| TreeBuilder.HuffmanTreeOfText | src/lib/huffman.ts:86-124 | for a non-empty text, each distinct symbol labels exactly one leaf, weighted by its occurrences, and the root weighs the text's length |
| TreeBuilder.HuffmanTreeSymbols | src/lib/huffman.ts:86-124 | for a non-empty text, the tree's symbols are exactly the text's, without repetition |
| HuffmanTree.LandingPathsArePrefixFree | src/lib/huffman.ts:175-186 | no path that ends on a leaf is a proper prefix of another, and equal paths reach the same symbol |
| CodeTable.GenerateTreeEntries | src/lib/huffman.ts:127-138 | the walk appends one entry per leaf in left-to-right order; each code extends the entry code and leads to its symbol's leaf |
| CodeTable.GenerateCodes | src/lib/huffman.ts:127-138 | on a `null` node the table is returned unchanged; otherwise the walk adds entries or overwrites present keys, so the table grows and the keys already present keep their places. `GenerateTreeEntries`, `CodeTableOfTree` and `CodeTableIsPrefixFree` state which entries it adds |
| CodeTable.GenerateTree | src/lib/huffman.ts:129-138 | on a node, the walk adds entries or overwrites present keys: the table grows and the keys already present keep their places. `GenerateTreeEntries` states that it adds one entry per leaf, left to right, each code leading to its symbol's leaf |
| CodeTable.CodeTableOfTree | src/lib/huffman.ts:127-138 | the table of a tree, `CodeTable.CodesOf`, lists its symbols in leaf order; each code is a non-empty bit string whose path from the root ends on the symbol's leaf |
| CodeTable.CodeTableIsPrefixFree | src/lib/huffman.ts:127-138 | no code in the table is a prefix of another symbol's code |
| CodeTable.SingleSymbolCode | src/lib/huffman.ts:127-138 | on the synthetic one-symbol root, the symbol gets the code "0" |
| CodeTable.LeafRootCode | src/lib/huffman.ts:132 | a leaf reached with the empty code gets "0"; `compress` never walks a bare leaf, since `buildHuffmanTree` always returns an internal root, so this case is reachable only by calling `generateCodes` directly |
| Codec.Compress | src/lib/huffman.ts:141-166 | an empty text gives empty results and leaves the instance unchanged; otherwise the instance keeps a tree and the returned table; the original size is 8 bits per symbol and the compressed size the output's length |
| Codec.CompressIgnoresState | src/lib/huffman.ts:141-166 | the result of `compress` does not depend on the instance's earlier tree and table |
| Codec.Encode | src/lib/huffman.ts:152-155 | when every code is a bit string, so is the output. `EncodeWeightedLength` gives its length, and `DecodeEncoded` states that the decoder reads it back |
| Codec.DecodeFrom | src/lib/huffman.ts:175-189 | every symbol emitted costs at least one bit. `DecodeCodeword`, `DecodeEncoded`, `TrailingBitsDropped` and `OtherCharactersGoRight` state what it emits |
| Codec.Decompress | src/lib/huffman.ts:169-190 | an empty input or a missing tree gives the empty text, and the output has at most one symbol per bit. `CompressRoundTrip`, `DecompressEncoded`, `TrailingBitsDropped`, `OtherCharactersGoRight` and `SingleSymbolRejectsOne` state its behaviour on encoded and other input |
| Codec.CompressSizes | src/lib/huffman.ts:150-158 | the output is a bit string of at least one bit per symbol; its length is the sum of code length times occurrences |
| Codec.EncodeWeightedLength | src/lib/huffman.ts:152-155 | the encoded length is the sum over the table of code length times the symbol's occurrences |
| Codec.SingleSymbolCompress | src/lib/huffman.ts:141-166 | a text of one repeated symbol encodes to one '0' per symbol, with the table listing that symbol with "0" |
| Codec.DecodeCodeword | src/lib/huffman.ts:175-186 | a codeword leading to a leaf emits its symbol and puts the cursor back on the root; the cursor moves are `HuffmanTree.Step` |
| Codec.DecodeEncoded | src/lib/huffman.ts:169-190 | decoding the codes of a text followed by more bits gives the text followed by what those bits decode to |
| Codec.DecompressEncoded | src/lib/huffman.ts:169-190 | decompressing the codes of a non-empty text gives the text back |
| Codec.CompressRoundTrip | src/lib/huffman.ts:141-190 | `decompress` with the tree `compress` left in the instance gives back every text, the empty one included |
| Codec.TrailingBitsDropped | src/lib/huffman.ts:175-189 | bits stopping on an internal node after the last codeword are dropped without an error |
| Codec.OtherCharactersGoRight | src/lib/huffman.ts:176-180 | the decoder reads every character other than '0' as '1' |
| Codec.SingleSymbolRejectsOne | src/lib/huffman.ts:176-183 | on the one-symbol tree a '1' finds no right child, and `decompress` throws |
| Codec.EncodeLength | src/lib/huffman.ts:152-155 | when every symbol has a non-empty code, the output has at least one bit per symbol |
| Bits.FixedWidthOfParse | src/lib/huffman.ts:201 | writing the value `Bits.ParseBinary` reads from a bit string back in as many bits gives the string |
| Bits.ParseOfFixedWidth | src/lib/huffman.ts:201 | reading a value written in `w` bits gives the value back when it fits |
| Bits.PaddedRadix2 | src/lib/huffman.ts:214 | `toString(2).padStart(8, '0')`, modelled by `Bits.Radix2` and `Bits.PadStart`, of a byte is its 8-bit form |
| Base64.SextetOfChar | src/lib/huffman.ts:205 | a character decodes to a value exactly when it is that value's character |
| Base64.GroupsRoundTrip | src/lib/huffman.ts:205-210 | 6-bit groups written as characters read back as the same bits |
| Base64.BytesBitsRoundTrip | src/lib/huffman.ts:205-210 | bytes written as bits read back as the same bytes |
| Base64.BtoaLength | src/lib/huffman.ts:205 | `btoa` writes four characters for every three bytes, the last group rounded up |
| Base64.Btoa | src/lib/huffman.ts:205 | the output length is a multiple of four. `BtoaLength` gives the exact length and `BtoaRoundTrip` states that `atob` reads it back |
| Base64.Atob | src/lib/huffman.ts:210 | the decoded bytes are at most three quarters of the text's length. `BtoaRoundTrip`, `AtobUnpadded` and `AtobIgnoresWhitespace` state what it accepts and returns |
| Base64.AtobUnpadded | src/lib/huffman.ts:210 | `atob` also decodes the characters of the 6-bit groups without the trailing '=' back to the bytes |
| Base64.AtobIgnoresWhitespace | src/lib/huffman.ts:210 | ASCII whitespace anywhere in the text changes neither what `atob` decodes nor whether it throws |
| Base64.BtoaRoundTrip | src/lib/huffman.ts:205-210 | `atob` after `btoa` gives every byte string back |
| Bits.PadTo | src/lib/huffman.ts:195-196 | `(k - n % k) % k` is below `k`, completes a multiple of `k`, and is zero exactly when `n` already is one; with `k = 8` it is the packer's zero bits, and `btoa` uses it with 6 and 4 |
| Packing.BinaryToBase64 | src/lib/huffman.ts:193-206 | the packed text's length is a multiple of four. `PackedLength` gives the exact length and `PackRoundTrip` states that `base64ToBinary` reads the bits back |
| Base64.BitsToBytes | src/lib/huffman.ts:199-203 | there is one byte per 8 bits, and byte `i` is the value of bits `8i` to `8i+7` |
| Packing.ExpandIsBits | src/lib/huffman.ts:213-216 | expanding bytes with `toString(2)` and `padStart` (`Packing.ExpandBytes`) gives their 8-bit forms |
| Packing.Prefix | src/lib/huffman.ts:218 | `substr(0, n)` keeps nothing for negative `n`, everything for `n` past the end, and otherwise the first `n` characters |
| Packing.Base64ToBinary | src/lib/huffman.ts:209-219 | unpacking fails exactly where `atob` throws; otherwise it gives the first `originalLength` bits of the 8-bit forms of the decoded bytes |
| Packing.PackRoundTrip | src/lib/huffman.ts:193-219 | unpacking the packed bits with their original length gives back every bit string |
| Packing.PackedLength | src/lib/huffman.ts:193-206 | the packed text has four characters per three started bytes, rounded up |
| Facade.CompressFile | src/lib/huffman.ts:231-246 | the listed table is the table `compress` built; the sizes are 8 bits per symbol and the code bits; for a non-empty file the ratio is compressed size over original size, the savings are its complement in percent and the ratio is at least 1/8, and for an empty one both are 0; the packed text unpacks with the compressed size to the compressed bits |
| Facade.EmptyFile | src/lib/huffman.ts:231-246 | an empty file gives empty text, an empty table and all-zero statistics |
| Facade.SavingsComplementRatio | src/lib/huffman.ts:235-236 | for a non-empty input the savings (`Facade.Savings`) are `(1 - ratio) * 100`, the ratio being `Facade.Ratio` |
| Facade.RatioAtLeastEighth | src/lib/huffman.ts:235 | with at least one bit per symbol against eight, the ratio is at least 1/8 |
| Facade.CompressFileRoundTrip | src/lib/huffman.ts:231-246 | unpacking the result with its compressed size and decoding with the tree `compress` built gives the file back |

## Left out

- User interface: `src/pages/Index.tsx`, `src/components/CompressionStats.tsx` and `src/components/FileUpload.tsx` are not part of this model. They cover file reading, downloads and notifications.
- String units:
  - A `string` here is a sequence of Unicode code points, which is what `for (const char of text)` iterates.
  - `text.length` counts UTF-16 code units, so the model's `8 * |text|` differs from the source's `originalSize` for symbols outside the Basic Multilingual Plane.
- Facade.CompressFile: the 1/8 lower bound on the ratio, and with it the upper bound of 87.5 on the savings, holds for the model's `8 * |text|`, which counts code points. The source's `originalSize` counts UTF-16 units, so a symbol outside the Basic Multilingual Plane adds 16 bits. A file holding only U+1F600 has original size 16, compressed size 1 and ratio 1/16. The bound holds for the source only when every symbol is one UTF-16 unit.
- Facade.RatioAtLeastEighth: the same condition; with UTF-16 units the original size can exceed 8 bits per symbol, and the lemma's premise no longer describes `compressFile`.
- Floating point: `compressionRatio` and `savings` are exact rationals (`real`), not IEEE doubles, so rounding is not modelled.
- Packing.BinaryToBase64: requires a string of '0' and '1', which is all that `compress` produces. `parseInt` on other characters (`NaN`, or a partial parse) is not modelled.
- The `btoa` error on a character code above 255 is not modelled. `binaryToBase64` only produces codes below 256.
- Packing.Base64ToBinary: `originalLength` is an integer. `substr` with a fractional or `NaN` length is not modelled.
- Optimality: the model does not prove that the code is an optimal prefix code. It proves that the code is a prefix code matching the tree, plus the shape and weight invariants of the tree.
- Tree transmission: `decompress` takes the tree from its caller. The source has no serialized form of the tree, so the model has none either.
- TreeBuilder.BuildHuffmanTree: its contract covers the empty and one-entry cases. Shape, leaves and weights are stated by `BuildHuffmanTreeShape` and `BuildHuffmanTreeLeaves`.

=== FILE: base64.dfy ===
/** The browser's `btoa` and `atob` on the byte strings the packer hands
    them: base64 with the alphabet of section 4 of RFC 4648, written with
    '=' padding, and read back with the forgiving-base64 decoding of the
    WHATWG Infra standard (ASCII whitespace ignored, the padding optional,
    the unused low bits of the last character ignored). Both are described
    on the bit level, as the standards describe them: the bytes are read as
    one string of bits that is cut into 6-bit groups. */
module Base64 {
  import opened Optional
  import opened Bits

  type Byte = b: int | 0 <= b < 256

  /** The character that writes a 6-bit value: 0-25 are 'A'-'Z', 26-51 are
      'a'-'z', 52-61 are '0'-'9', 62 is '+' and 63 is '/' (table 1 of
      RFC 4648). */
  function CharOf(v: nat): (c: char)
    requires v < 64
  {
    if v < 26 then ('A' as int + v) as char
    else if v < 52 then ('a' as int + (v - 26)) as char
    else if v < 62 then ('0' as int + (v - 52)) as char
    else if v == 62 then '+'
    else '/'
  }

  /** The value a character writes, `None` for a character outside the
      alphabet. */
  function SextetOf(c: char): (v: Option<nat>)
    ensures v.Some? ==> v.value < 64
  {
    if 'A' <= c <= 'Z' then Some(c as int - 'A' as int)
    else if 'a' <= c <= 'z' then Some(c as int - 'a' as int + 26)
    else if '0' <= c <= '9' then Some(c as int - '0' as int + 52)
    else if c == '+' then Some(62)
    else if c == '/' then Some(63)
    else None
  }

  /** A character is read as a value exactly when it is that value's
      character. */
  lemma SextetOfChar(c: char, v: nat)
    requires v < 64
    ensures SextetOf(c) == Some(v) <==> CharOf(v) == c
  {
  }

  predicate InAlphabet(c: char) {
    SextetOf(c).Some?
  }

  predicate AllInAlphabet(s: string) {
    forall i :: 0 <= i < |s| ==> InAlphabet(s[i])
  }

  /** The bytes as one bit string, eight bits per byte. */
  function BytesToBits(data: seq<Byte>): (bits: string)
    ensures |bits| == 8 * |data| && IsBits(bits)
  {
    if |data| == 0 then ""
    else
      var rest := BytesToBits(data[1..]);
      ConcatBits(FixedWidth(data[0], 8), rest);
      FixedWidth(data[0], 8) + rest
  }

  /** A bit string cut into bytes, each read as `parseInt(byte, 2)`: the
      packer's loop over 8-bit groups, and the last step of decoding. */
  function BitsToBytes(bits: string): (data: seq<Byte>)
    requires |bits| % 8 == 0
    ensures |data| == |bits| / 8
    ensures forall i :: 0 <= i < |data| ==> data[i] == ParseBinary(bits[8 * i..8 * i + 8])
    decreases |bits|
  {
    if |bits| == 0 then []
    else
      assert Pow2(8) == 256;
      var rest := BitsToBytes(bits[8..]);
      GroupsOfTail(bits);
      [ParseBinary(bits[..8])] + rest
  }

  /** The 8-bit groups after the first are the groups of the rest. */
  lemma GroupsOfTail(bits: string)
    requires |bits| >= 8
    ensures forall i :: 1 <= i <= (|bits| - 8) / 8 ==> bits[8 * i..8 * i + 8] == bits[8..][8 * (i - 1)..8 * (i - 1) + 8]
  {
    forall i | 1 <= i <= (|bits| - 8) / 8
      ensures bits[8 * i..8 * i + 8] == bits[8..][8 * (i - 1)..8 * (i - 1) + 8]
    {
      var j := i - 1;
      assert 8 * i == 8 * j + 8 && 8 * j + 8 <= |bits| - 8;
      assert bits[8..][8 * j..8 * j + 8] == bits[8 * j + 8..8 * j + 16];
    }
  }

  /** Bytes survive the trip through bits. */
  lemma {:induction false} BytesBitsRoundTrip(data: seq<Byte>)
    ensures BitsToBytes(BytesToBits(data)) == data
    decreases |data|
  {
    if |data| > 0 {
      var bits := BytesToBits(data);
      assert bits[..8] == FixedWidth(data[0], 8);
      assert bits[8..] == BytesToBits(data[1..]);
      assert Pow2(8) == 256;
      ParseOfFixedWidth(data[0], 8);
      BytesBitsRoundTrip(data[1..]);
    }
  }

  /** A bit string whose length is a multiple of 6, one character per
      6-bit group. */
  function EncodeGroups(bits: string): (s: string)
    requires |bits| % 6 == 0
    ensures |s| == |bits| / 6
    ensures AllInAlphabet(s)
  {
    if |bits| == 0 then ""
    else
      assert Pow2(6) == 64;
      var c := CharOf(ParseBinary(bits[..6]));
      SextetOfChar(c, ParseBinary(bits[..6]));
      [c] + EncodeGroups(bits[6..])
  }

  /** The 6-bit groups that characters of the alphabet write. */
  function DecodeGroups(s: string): (bits: string)
    requires AllInAlphabet(s)
    ensures |bits| == 6 * |s| && IsBits(bits)
  {
    if |s| == 0 then ""
    else
      assert InAlphabet(s[0]);
      var rest := DecodeGroups(s[1..]);
      ConcatBits(FixedWidth(SextetOf(s[0]).value, 6), rest);
      FixedWidth(SextetOf(s[0]).value, 6) + rest
  }

  /** Bits survive the trip through characters. */
  lemma {:induction false} GroupsRoundTrip(bits: string)
    requires |bits| % 6 == 0 && IsBits(bits)
    ensures DecodeGroups(EncodeGroups(bits)) == bits
    decreases |bits|
  {
    if |bits| > 0 {
      var group := bits[..6];
      assert IsBits(group) by {
        forall i | 0 <= i < 6 ensures group[i] == '0' || group[i] == '1' {
          assert group[i] == bits[i];
        }
      }
      assert IsBits(bits[6..]) by {
        forall i | 0 <= i < |bits| - 6 ensures bits[6..][i] == '0' || bits[6..][i] == '1' {
          assert bits[6..][i] == bits[i + 6];
        }
      }
      assert Pow2(6) == 64;
      SextetOfChar(CharOf(ParseBinary(group)), ParseBinary(group));
      FixedWidthOfParse(group);
      GroupsRoundTrip(bits[6..]);
      assert bits == group + bits[6..];
    }
  }

  /** The bits of the bytes followed by the zero bits that complete the
      last 6-bit group. */
  function GroupBits(data: seq<Byte>): (padded: string)
    ensures |padded| == 8 * |data| + PadTo(8 * |data|, 6)
    ensures |padded| % 6 == 0 && IsBits(padded)
    ensures padded[..8 * |data|] == BytesToBits(data)
  {
    var bits := BytesToBits(data);
    ConcatBits(bits, Zeros(PadTo(|bits|, 6)));
    bits + Zeros(PadTo(|bits|, 6))
  }

  /** `btoa`: the base64 text of a byte string, padded with '=' to a
      multiple of four characters. */
  function Btoa(data: seq<Byte>): (s: string)
    ensures |s| % 4 == 0
  {
    var chars := EncodeGroups(GroupBits(data));
    chars + Repeat('=', PadTo(|chars|, 4))
  }

  /** Every three bytes, and a last group of one or two, take four
      characters. */
  lemma BtoaLength(data: seq<Byte>)
    ensures |Btoa(data)| == 4 * ((|data| + 2) / 3)
  {
    BlockLengths(|data|);
  }

  /** The number of characters the bytes need, and the padding after them. */
  lemma BlockLengths(n: nat)
    ensures var chars := (8 * n + PadTo(8 * n, 6)) / 6;
      && chars % 4 != 1
      && chars + PadTo(chars, 4) == 4 * ((n + 2) / 3)
  {
    var q, r := n / 3, n % 3;
    assert n == 3 * q + r;
    if r == 0 {
      FullBlocks(q);
    } else if r == 1 {
      OneByteLeft(q);
    } else {
      TwoBytesLeft(q);
    }
  }

  /** Three bytes take four characters and no padding, ... */
  lemma FullBlocks(q: nat)
    ensures var n := 3 * q;
      && PadTo(8 * n, 6) == 0
      && (8 * n + PadTo(8 * n, 6)) / 6 == 4 * q
      && PadTo(4 * q, 4) == 0
      && (n + 2) / 3 == q
  {
    ModUnique(8 * (3 * q), 6, 4 * q, 0);
    ModUnique(4 * q, 4, q, 0);
  }

  /** ... one byte more takes two characters and two '=', ... */
  lemma OneByteLeft(q: nat)
    ensures var n := 3 * q + 1;
      && PadTo(8 * n, 6) == 4
      && (8 * n + PadTo(8 * n, 6)) / 6 == 4 * q + 2
      && (4 * q + 2) % 4 == 2 && PadTo(4 * q + 2, 4) == 2
      && (n + 2) / 3 == q + 1
  {
    ModUnique(8 * (3 * q + 1), 6, 4 * q + 1, 2);
    ModUnique(4 * q + 2, 4, q, 2);
  }

  /** ... and two bytes more take three characters and one '='. */
  lemma TwoBytesLeft(q: nat)
    ensures var n := 3 * q + 2;
      && PadTo(8 * n, 6) == 2
      && (8 * n + PadTo(8 * n, 6)) / 6 == 4 * q + 3
      && (4 * q + 3) % 4 == 3 && PadTo(4 * q + 3, 4) == 1
      && (n + 2) / 3 == q + 1
  {
    ModUnique(8 * (3 * q + 2), 6, 4 * q + 2, 4);
    ModUnique(4 * q + 3, 4, q, 3);
  }

  /** The ASCII whitespace the decoder skips. */
  predicate IsAsciiWhitespace(c: char) {
    c == '\t' || c == '\n' || c == '\U{000C}' || c == '\r' || c == ' '
  }

  function RemoveWhitespace(s: string): (r: string)
    ensures forall i :: 0 <= i < |r| ==> !IsAsciiWhitespace(r[i])
    ensures |r| <= |s|
  {
    if |s| == 0 then ""
    else if IsAsciiWhitespace(s[0]) then RemoveWhitespace(s[1..])
    else [s[0]] + RemoveWhitespace(s[1..])
  }

  /** A text without ASCII whitespace passes unchanged. */
  lemma {:induction false} NoWhitespaceUnchanged(s: string)
    requires forall i :: 0 <= i < |s| ==> !IsAsciiWhitespace(s[i])
    ensures RemoveWhitespace(s) == s
    decreases |s|
  {
    if |s| > 0 {
      NoWhitespaceUnchanged(s[1..]);
      assert s == [s[0]] + s[1..];
    }
  }

  /** When the length is a multiple of four, one or two trailing '=' are
      dropped. */
  function StripPadding(s: string): (r: string)
    ensures |r| <= |s| && r == s[..|r|]
  {
    if |s| % 4 == 0 && |s| >= 2 && s[|s| - 2] == '=' && s[|s| - 1] == '=' then s[..|s| - 2]
    else if |s| % 4 == 0 && |s| >= 1 && s[|s| - 1] == '=' then s[..|s| - 1]
    else s
  }

  /** `atob`: the bytes a base64 text writes, `None` where the browser
      throws. Decoding fails when, after dropping whitespace and padding,
      one character would be left over in the last block, or a character is
      outside the alphabet; the bits of a last, incomplete block that do not
      fill a byte are ignored. */
  function Atob(s: string): (r: Option<seq<Byte>>)
    ensures r.Some? ==> 4 * |r.value| <= 3 * |s|
  {
    var d := StripPadding(RemoveWhitespace(s));
    if |d| % 4 == 1 then None
    else if !AllInAlphabet(d) then None
    else
      var bits := DecodeGroups(d);
      Some(BitsToBytes(bits[..WholeBytes(|bits|)]))
  }

  /** The length of the longest prefix made of whole bytes. */
  function WholeBytes(n: nat): (m: nat)
    ensures m <= n && m % 8 == 0 && n - m < 8
  {
    n / 8 * 8
  }

  /** `atob` undoes `btoa`. */
  lemma BtoaRoundTrip(data: seq<Byte>)
    ensures Atob(Btoa(data)) == Some(data)
  {
    var chars := EncodeGroups(GroupBits(data));
    BtoaTextIsGroups(data);
    GroupsDecodeToData(data);
    AtobDecodes(Btoa(data), chars);
  }

  /** The padding is optional: `atob` also accepts the characters of the
      6-bit groups without the trailing '='. */
  lemma AtobUnpadded(data: seq<Byte>)
    ensures Atob(EncodeGroups(GroupBits(data))) == Some(data)
  {
    var chars := EncodeGroups(GroupBits(data));
    AlphabetTextUnchanged(chars);
    GroupsDecodeToData(data);
    AtobDecodes(chars, chars);
  }

  /** ASCII whitespace anywhere in the text does not change what `atob`
      decodes, nor whether it fails. */
  lemma AtobIgnoresWhitespace(s: string)
    ensures Atob(s) == Atob(RemoveWhitespace(s))
  {
    NoWhitespaceUnchanged(RemoveWhitespace(s));
  }

  /** The characters of the 6-bit groups of some bytes never leave a single
      character in the last block, and decode to those bytes. */
  lemma GroupsDecodeToData(data: seq<Byte>)
    ensures var chars := EncodeGroups(GroupBits(data));
      && |chars| % 4 != 1 && AllInAlphabet(chars)
      && BitsToBytes(DecodeGroups(chars)[..WholeBytes(6 * |chars|)]) == data
  {
    var padded := GroupBits(data);
    var chars := EncodeGroups(padded);
    assert |chars| % 4 != 1 by {
      BlockLengths(|data|);
    }
    assert DecodeGroups(chars) == padded by {
      GroupsRoundTrip(padded);
    }
    assert WholeBytes(6 * |chars|) == 8 * |data| by {
      WholeBytesAfter(|data|, PadTo(8 * |data|, 6));
    }
    assert BitsToBytes(padded[..8 * |data|]) == data by {
      BytesBitsRoundTrip(data);
    }
  }

  /** Alphabet characters are neither whitespace nor padding. */
  lemma AlphabetTextUnchanged(chars: string)
    requires AllInAlphabet(chars)
    ensures StripPadding(RemoveWhitespace(chars)) == chars
  {
    forall i | 0 <= i < |chars| ensures !IsAsciiWhitespace(chars[i]) {
      assert InAlphabet(chars[i]);
    }
    NoWhitespaceUnchanged(chars);
    if |chars| > 0 {
      assert InAlphabet(chars[|chars| - 1]);
    }
  }

  /** A text that is, once whitespace and padding are dropped, a sequence
      of alphabet characters with no single character left over in the last
      block, decodes to the whole bytes of the groups those characters
      write. */
  lemma AtobDecodes(s: string, chars: string)
    requires StripPadding(RemoveWhitespace(s)) == chars
    requires |chars| % 4 != 1 && AllInAlphabet(chars)
    ensures Atob(s) == Some(BitsToBytes(DecodeGroups(chars)[..WholeBytes(6 * |chars|)]))
  {
  }

  /** Fewer than eight trailing bits are cut off. */
  lemma WholeBytesAfter(n: nat, k: nat)
    requires k < 8
    ensures WholeBytes(8 * n + k) == 8 * n
  {
    assert (8 * n + k) / 8 == n;
  }

  /** Once whitespace and padding are dropped, the decoder sees exactly the
      characters written for the 6-bit groups. */
  lemma BtoaTextIsGroups(data: seq<Byte>)
    ensures StripPadding(RemoveWhitespace(Btoa(data))) == EncodeGroups(GroupBits(data))
  {
    var chars := EncodeGroups(GroupBits(data));
    var p := PadTo(|chars|, 4);
    var s := Btoa(data);
    BlockLengths(|data|);
    assert forall i :: 0 <= i < |s| ==> !IsAsciiWhitespace(s[i]) by {
      forall i | 0 <= i < |s| ensures !IsAsciiWhitespace(s[i]) {
        if i < |chars| {
          assert s[i] == chars[i] && InAlphabet(chars[i]);
        } else {
          assert s[i] == '=';
        }
      }
    }
    NoWhitespaceUnchanged(s);
    StripsToChars(chars, p);
  }

  /** The decoder's padding removal takes off exactly the '=' the encoder
      appended. */
  lemma StripsToChars(chars: string, p: nat)
    requires AllInAlphabet(chars)
    requires p == PadTo(|chars|, 4) && |chars| % 4 != 1
    ensures StripPadding(chars + Repeat('=', p)) == chars
  {
    var s := chars + Repeat('=', p);
    if p == 2 {
      assert s[..|s| - 2] == chars;
    } else if p == 1 {
      assert s[|s| - 2] == chars[|chars| - 1];
      assert s[..|s| - 1] == chars;
    } else {
      assert s == chars;
      if |s| > 0 {
        assert InAlphabet(s[|s| - 1]);
      }
    }
  }
}

=== FILE: bits.dfy ===
/** Bit strings as the codec writes them: JavaScript strings of the
    characters '0' and '1', most significant bit first, together with the
    number conversions the packer uses (`parseInt(s, 2)`,
    `n.toString(2)` and `padStart`). */
module Bits {

  /** A string made of the characters '0' and '1' only. */
  predicate IsBits(s: string) {
    forall i :: 0 <= i < |s| ==> s[i] == '0' || s[i] == '1'
  }

  function Pow2(n: nat): (p: nat)
    ensures p >= 1
  {
    if n == 0 then 1 else 2 * Pow2(n - 1)
  }

  /** `c.repeat(n)`. */
  function Repeat(c: char, n: nat): (s: string)
    ensures |s| == n
    ensures forall i :: 0 <= i < n ==> s[i] == c
  {
    seq(n, _ => c)
  }

  /** `'0'.repeat(n)`, which is a bit string. */
  function Zeros(n: nat): (s: string)
    ensures |s| == n && IsBits(s)
    ensures forall i :: 0 <= i < n ==> s[i] == '0'
  {
    Repeat('0', n)
  }

  /** `(k - n % k) % k`: how far `n` falls short of the next multiple of
      `k`, used for the zero bits that complete a byte or a 6-bit group and
      for the '=' that complete a block of four characters. */
  function PadTo(n: nat, k: nat): (p: nat)
    requires k > 0
    ensures p < k && (n + p) % k == 0
    ensures n % k == 0 <==> p == 0
  {
    PadFacts(n, k);
    (k - n % k) % k
  }

  /** The shortfall is `k - n % k`, or nothing when `n` is a multiple. */
  lemma PadFacts(n: nat, k: nat)
    requires k > 0
    ensures n % k != 0 ==> (n + (k - n % k)) % k == 0
    ensures (k - n % k) % k == if n % k == 0 then 0 else k - n % k
  {
    var q, r := n / k, n % k;
    assert n == k * q + r;
    ModUnique(k, k, 1, 0);
    if r != 0 {
      ModUnique(k - r, k, 0, k - r);
      assert k * q + k == k * (q + 1);
      ModUnique(n + (k - r), k, q + 1, 0);
    }
  }

  /** Division with remainder is unique. */
  lemma ModUnique(x: nat, k: nat, q: nat, r: nat)
    requires k > 0 && r < k && x == k * q + r
    ensures x % k == r && x / k == q
  {
    var q', r' := x / k, x % k;
    assert x == k * q' + r';
    assert q' >= q + 1 ==> k * q' >= k * (q + 1);
    assert q >= q' + 1 ==> k * q >= k * (q' + 1);
    assert q' == q;
  }

  function Digit(b: nat): char
    requires b < 2
  {
    if b == 0 then '0' else '1'
  }

  /** The value of a bit string read in base 2, most significant bit first;
      on a bit string this is `parseInt(s, 2)`. */
  function ParseBinary(s: string): (n: nat)
    ensures n < Pow2(|s|)
  {
    if |s| == 0 then 0
    else 2 * ParseBinary(s[..|s| - 1]) + (if s[|s| - 1] == '1' then 1 else 0)
  }

  /** The `w` low-order bits of `n`, most significant first. */
  function FixedWidth(n: nat, w: nat): (s: string)
    ensures |s| == w && IsBits(s)
  {
    if w == 0 then "" else FixedWidth(n / 2, w - 1) + [Digit(n % 2)]
  }

  /** `n.toString(2)`: base 2 without leading zeros, "0" for zero. */
  function Radix2(n: nat): (s: string)
    ensures |s| >= 1 && IsBits(s)
  {
    if n < 2 then [Digit(n)] else Radix2(n / 2) + [Digit(n % 2)]
  }

  /** `s.padStart(w, '0')`. */
  function PadStart(s: string, w: nat): (r: string)
    ensures |r| == if |s| >= w then |s| else w
    ensures r[|r| - |s|..] == s
    ensures forall i :: 0 <= i < |r| - |s| ==> r[i] == '0'
  {
    if |s| >= w then s else Zeros(w - |s|) + s
  }

  /** Reading a bit string back from its value gives the string again. */
  lemma {:induction false} FixedWidthOfParse(s: string)
    requires IsBits(s)
    ensures FixedWidth(ParseBinary(s), |s|) == s
    decreases |s|
  {
    if |s| > 0 {
      var init := s[..|s| - 1];
      assert IsBits(init) by {
        forall i | 0 <= i < |init| ensures init[i] == '0' || init[i] == '1' {
          assert init[i] == s[i];
        }
      }
      FixedWidthOfParse(init);
      var n := ParseBinary(s);
      assert n / 2 == ParseBinary(init);
      assert s == init + [s[|s| - 1]];
    }
  }

  /** Writing a value in `w` bits and reading it back gives the value, when
      the value fits in `w` bits. */
  lemma {:induction false} ParseOfFixedWidth(n: nat, w: nat)
    requires n < Pow2(w)
    ensures ParseBinary(FixedWidth(n, w)) == n
    decreases w
  {
    if w > 0 {
      ParseOfFixedWidth(n / 2, w - 1);
      var s := FixedWidth(n, w);
      assert s[..|s| - 1] == FixedWidth(n / 2, w - 1);
    }
  }

  /** A value below 2^w padded to `w` places is its `w`-bit form. */
  lemma {:induction false} PaddedRadix2(n: nat, w: nat)
    requires w >= 1 && n < Pow2(w)
    ensures |Radix2(n)| <= w
    ensures PadStart(Radix2(n), w) == FixedWidth(n, w)
    decreases n
  {
    if n < 2 {
      ZerosWidth(w - 1);
      assert FixedWidth(n, w) == FixedWidth(0, w - 1) + [Digit(n)];
    } else {
      assert Pow2(1) == 2;
      PaddedRadix2(n / 2, w - 1);
      assert Zeros(w - |Radix2(n)|) + Radix2(n)
        == (Zeros(w - 1 - |Radix2(n / 2)|) + Radix2(n / 2)) + [Digit(n % 2)];
    }
  }

  /** Zero in any width is all zeros. */
  lemma {:induction false} ZerosWidth(w: nat)
    ensures FixedWidth(0, w) == Zeros(w)
    decreases w
  {
    if w > 0 {
      ZerosWidth(w - 1);
      assert Zeros(w) == Zeros(w - 1) + ['0'];
    }
  }

  /** Concatenations of bit strings are bit strings. */
  lemma ConcatBits(a: string, b: string)
    requires IsBits(a) && IsBits(b)
    ensures IsBits(a + b)
  {
    forall i | 0 <= i < |a + b| ensures (a + b)[i] == '0' || (a + b)[i] == '1' {
      if i < |a| {
        assert (a + b)[i] == a[i];
      } else {
        assert (a + b)[i] == b[i - |a|];
      }
    }
  }
}

=== FILE: codec.dfy ===
/** `HuffmanCoding.compress` and `HuffmanCoding.decompress`
    (src/lib/huffman.ts:80-190). The instance's two private fields, the last
    tree and the last code table, are the `Coder` state that `compress`
    replaces; `decompress` walks a tree given by its caller. */
module Codec {
  import opened Optional
  import opened OrderedMap
  import opened HuffmanTree
  import opened Frequency
  import opened TreeBuilder
  import opened CodeTable
  import opened Bits

  /** The fields `root` and `codes` of a `HuffmanCoding` instance. */
  datatype Coder = Coder(root: Option<Tree>, codes: Codes)

  /** A fresh instance: no tree and an empty table. */
  const NewCoder := Coder(None, [])

  /** The object `compress` returns. */
  datatype Compressed = Compressed(compressed: string, codes: Codes, originalSize: nat, compressedSize: nat)

  /** The loop `compressed += codes.get(char) || ''`: the codes of the
      symbols in text order, a symbol without a code contributing nothing. */
  function Encode(codes: Codes, text: string): (bits: string)
    ensures BitCodes(codes) ==> IsBits(bits)
    decreases |text|
  {
    if |text| == 0 then ""
    else
      var rest := Encode(codes, text[1..]);
      CodeThenBits(codes, text[0], rest);
      Get(codes, text[0]).GetOr("") + rest
  }

  /** Every code of the table is a bit string. */
  predicate BitCodes(codes: Codes) {
    forall i :: 0 <= i < |codes| ==> IsBits(codes[i].1)
  }

  /** A symbol's code followed by bits is bits, when every code is. */
  lemma CodeThenBits(codes: Codes, c: char, rest: string)
    requires BitCodes(codes) ==> IsBits(rest)
    ensures BitCodes(codes) ==> IsBits(Get(codes, c).GetOr("") + rest)
  {
    if BitCodes(codes) {
      match IndexOf(codes, c)
      case None =>
        assert Get(codes, c).GetOr("") + rest == rest;
      case Some(i) =>
        ConcatBits(codes[i].1, rest);
    }
  }

  /** `compress`: an empty text returns empty results and leaves the
      instance as it was; otherwise the frequency table, the tree and the
      code table are rebuilt, the instance keeps the tree and the table, and
      the sizes are 8 bits per symbol before and one bit per code character
      after. */
  function Compress(coder: Coder, text: string): (r: (Coder, Compressed))
    ensures text == "" ==> r == (coder, Compressed("", [], 0, 0))
    ensures text != "" ==> r.0.root.Some? && r.0.codes == r.1.codes
    ensures r.1.originalSize == 8 * |text|
    ensures r.1.compressedSize == |r.1.compressed|
  {
    if text == "" then (coder, Compressed("", [], 0, 0))
    else
      var freq := BuildFrequencyTable(text);
      var root := BuildHuffmanTree(freq);
      var codes := CodesOf(root);
      var compressed := Encode(codes, text);
      (Coder(root, codes), Compressed(compressed, codes, 8 * |text|, |compressed|))
  }

  /** The decoding loop from cursor `cur`: '0' moves to the left child and
      any other character to the right child; reaching a leaf emits its
      symbol and puts the cursor back on the root. `None` stands for the
      `TypeError` raised when a move finds no child. Bits left over after
      the last leaf emit nothing. */
  function DecodeFrom(root: Tree, cur: Tree, bits: string): (r: Option<string>)
    ensures r.Some? ==> |r.value| <= |bits|
    decreases |bits|
  {
    if |bits| == 0 then Some("")
    else
      match Step(cur, bits[0])
      case None => None
      case Some(next) =>
        if next.Leaf? then
          match DecodeFrom(root, root, bits[1..])
          case None => None
          case Some(rest) => Some([next.symbol] + rest)
        else DecodeFrom(root, next, bits[1..])
  }

  /** `decompress`: an empty input or a missing tree gives the empty text.
      Every symbol emitted costs at least one bit. */
  function Decompress(compressed: string, root: Option<Tree>): (r: Option<string>)
    ensures compressed == "" || root.None? ==> r == Some("")
    ensures r.Some? ==> |r.value| <= |compressed|
  {
    if compressed == "" || root.None? then Some("")
    else DecodeFrom(root.value, root.value, compressed)
  }

  /** `text` followed by the output of `rest`, failing where `rest` fails. */
  function Prepend(text: string, rest: Option<string>): Option<string> {
    match rest
    case None => None
    case Some(s) => Some(text + s)
  }

  /** A path that lands on the leaf of `c` makes the decoder emit `c` and
      continue from the root. */
  lemma {:induction false} DecodeCodeword(root: Tree, cur: Tree, path: string, c: char, rest: string)
    requires |path| > 0 && LandsOn(cur, path, c)
    ensures DecodeFrom(root, cur, path + rest) == Prepend([c], DecodeFrom(root, root, rest))
    decreases |path|
  {
    var bits := path + rest;
    assert bits[0] == path[0] && bits[1..] == path[1..] + rest;
    var next := Step(cur, path[0]).value;
    if |path| == 1 {
      assert path[1..] == "" && path[1..] + rest == rest;
      assert Walk(cur, path) == Walk(next, path[1..]);
      assert next.Leaf? && next.symbol == c;
    } else {
      assert Walk(next, path[1..]) == Walk(cur, path);
      assert Step(next, path[1]).Some?;
      DecodeCodeword(root, next, path[1..], c, rest);
    }
  }

  /** Every symbol of `text` has a code that is a path landing on its leaf. */
  predicate CodesLand(root: Tree, codes: Codes, text: string) {
    forall i :: 0 <= i < |text| ==>
      Get(codes, text[i]).Some? && |Get(codes, text[i]).value| > 0 && LandsOn(root, Get(codes, text[i]).value, text[i])
  }

  /** What holds for a text holds for its tail. */
  lemma CodesLandTail(root: Tree, codes: Codes, text: string)
    requires |text| > 0 && CodesLand(root, codes, text)
    ensures CodesLand(root, codes, text[1..])
  {
    forall i | 0 <= i < |text| - 1
      ensures Get(codes, text[1..][i]).Some? && |Get(codes, text[1..][i]).value| > 0
      ensures LandsOn(root, Get(codes, text[1..][i]).value, text[1..][i])
    {
      assert text[1..][i] == text[i + 1];
    }
  }

  /** Decoding the codes of `text` gives `text`, followed by whatever the
      bits after them give. */
  lemma {:induction false} DecodeEncoded(root: Tree, codes: Codes, text: string, rest: string)
    requires CodesLand(root, codes, text)
    ensures DecodeFrom(root, root, Encode(codes, text) + rest) == Prepend(text, DecodeFrom(root, root, rest))
    decreases |text|
  {
    if |text| > 0 {
      var code := Get(codes, text[0]).value;
      var tail := Encode(codes, text[1..]);
      CodesLandTail(root, codes, text);
      assert Encode(codes, text) + rest == code + (tail + rest);
      DecodeCodeword(root, root, code, text[0], tail + rest);
      DecodeEncoded(root, codes, text[1..], rest);
      match DecodeFrom(root, root, rest)
      case None =>
      case Some(after) =>
        assert [text[0]] + (text[1..] + after) == text + after;
    } else {
      assert Encode(codes, text) + rest == rest;
      match DecodeFrom(root, root, rest)
      case None =>
      case Some(after) =>
        assert text + after == after;
    }
  }

  /** Each symbol contributes at least one bit when every symbol has a
      non-empty code. */
  lemma {:induction false} EncodeLength(root: Tree, codes: Codes, text: string)
    requires CodesLand(root, codes, text)
    ensures |Encode(codes, text)| >= |text|
    decreases |text|
  {
    if |text| > 0 {
      CodesLandTail(root, codes, text);
      EncodeLength(root, codes, text[1..]);
    }
  }

  /** In the code table of a tree without repeated symbols, the code of a
      symbol of the tree is the path to its leaf. */
  lemma LookupLands(t: Tree, c: char)
    requires t.Node? && UniqueSymbols(t) && c in Symbols(t)
    ensures var code := Get(CodesOf(Some(t)), c);
      code.Some? && |code.value| > 0 && LandsOn(t, code.value, c)
  {
    var codes := CodesOf(Some(t));
    CodeTableOfTree(t);
    var j :| 0 <= j < |codes| && KeysOf(codes)[j] == c;
    GetEntry(codes, j);
  }

  /** The tree `compress` builds for a non-empty text has a code, landing on
      the symbol's leaf, for every symbol of the text. */
  lemma CompressedCodesLand(text: string)
    requires |text| > 0
    ensures var root := BuildHuffmanTree(BuildFrequencyTable(text));
      && root.Some? && root.value.Node?
      && CodesLand(root.value, CodesOf(root), text)
  {
    var root := BuildHuffmanTree(BuildFrequencyTable(text)).value;
    HuffmanTreeSymbols(text);
    forall i | 0 <= i < |text|
      ensures Get(CodesOf(Some(root)), text[i]).Some? && |Get(CodesOf(Some(root)), text[i]).value| > 0
      ensures LandsOn(root, Get(CodesOf(Some(root)), text[i]).value, text[i])
    {
      LookupLands(root, text[i]);
    }
  }

  /** `decompress` undoes `compress`, given the tree `compress` left in the
      instance; for the empty text both sides are empty. */
  lemma CompressRoundTrip(coder: Coder, text: string)
    ensures Decompress(Compress(coder, text).1.compressed, Compress(coder, text).0.root) == Some(text)
  {
    if text != "" {
      CompressedCodesLand(text);
      var root := BuildHuffmanTree(BuildFrequencyTable(text));
      DecompressEncoded(root.value, CodesOf(root), text);
    }
  }

  /** Decompressing the codes of a non-empty text with a tree on which
      they land gives the text. */
  lemma DecompressEncoded(root: Tree, codes: Codes, text: string)
    requires |text| > 0 && CodesLand(root, codes, text)
    ensures Decompress(Encode(codes, text), Some(root)) == Some(text)
  {
    var bits := Encode(codes, text);
    EncodeLength(root, codes, text);
    DecodeEncoded(root, codes, text, "");
    assert bits + "" == bits;
    assert text + "" == text;
  }

  /** A path that stops on an internal node emits nothing and raises no
      error. */
  lemma {:induction false} PartialCodewordEmitsNothing(root: Tree, cur: Tree, path: string)
    requires Walk(cur, path).Some? && Walk(cur, path).value.Node?
    ensures DecodeFrom(root, cur, path) == Some("")
    decreases |path|
  {
    if |path| > 0 {
      var next := Step(cur, path[0]).value;
      assert Walk(next, path[1..]) == Walk(cur, path);
      if |path| == 1 {
        assert next.Node?;
      } else {
        assert Step(next, path[1]).Some?;
      }
      PartialCodewordEmitsNothing(root, next, path[1..]);
    }
  }

  /** Bits that stop inside a codeword after the last complete one are
      dropped without an error. */
  lemma TrailingBitsDropped(root: Tree, codes: Codes, text: string, partial: string)
    requires CodesLand(root, codes, text)
    requires Walk(root, partial).Some? && Walk(root, partial).value.Node?
    ensures DecodeFrom(root, root, Encode(codes, text) + partial) == Some(text)
  {
    DecodeEncoded(root, codes, text, partial);
    PartialCodewordEmitsNothing(root, root, partial);
    assert text + "" == text;
  }

  /** The decoder reads every character other than '0' as '1'. */
  function AsBits(s: string): (r: string)
    ensures |r| == |s| && IsBits(r)
    ensures forall i :: 0 <= i < |s| ==> (r[i] == '0' <==> s[i] == '0')
  {
    seq(|s|, i requires 0 <= i < |s| => if s[i] == '0' then '0' else '1')
  }

  lemma {:induction false} OtherCharactersGoRight(root: Tree, cur: Tree, bits: string)
    ensures DecodeFrom(root, cur, bits) == DecodeFrom(root, cur, AsBits(bits))
    decreases |bits|
  {
    if |bits| > 0 {
      var b := AsBits(bits);
      assert Step(cur, bits[0]) == Step(cur, b[0]);
      assert b[1..] == AsBits(bits[1..]);
      OtherCharactersGoRight(root, root, bits[1..]);
      if Step(cur, bits[0]).Some? {
        OtherCharactersGoRight(root, Step(cur, bits[0]).value, bits[1..]);
      }
    }
  }

  /** On the tree of a text with one distinct symbol, a '1' asks for the
      missing right child, and `decompress` throws. */
  lemma SingleSymbolRejectsOne(c: char, w: nat)
    ensures Decompress("1", Some(Node(w, Leaf(c, w), None))) == None
  {
  }

  /** The result of `compress` does not depend on the instance's earlier
      state. */
  lemma CompressIgnoresState(coder: Coder, other: Coder, text: string)
    ensures Compress(coder, text).1 == Compress(other, text).1
    ensures text != "" ==> Compress(coder, text).0 == Compress(other, text).0
  {
  }

  /** The number of bits the codes of `codes` take in `text`: each code's
      length times the number of occurrences of its symbol. */
  function WeightedLength(codes: Codes, text: string): nat {
    if |codes| == 0 then 0
    else
      var e := codes[|codes| - 1];
      WeightedLength(codes[..|codes| - 1], text) + multiset(text)[e.0] * |e.1|
  }

  /** The encoded length is the sum, over the table, of code length times
      occurrences; a symbol without a code counts nothing. */
  lemma {:induction false} EncodeWeightedLength(codes: Codes, text: string)
    requires Valid(codes)
    ensures |Encode(codes, text)| == WeightedLength(codes, text)
    decreases |text|
  {
    if |text| == 0 {
      WeightedLengthEmpty(codes, text);
    } else {
      EncodeWeightedLength(codes, text[1..]);
      assert text == [text[0]] + text[1..];
      WeightedLengthCons(codes, text[0], text[1..]);
    }
  }

  lemma {:induction false} WeightedLengthEmpty(codes: Codes, text: string)
    requires |text| == 0
    ensures WeightedLength(codes, text) == 0
    decreases |codes|
  {
    if |codes| > 0 {
      WeightedLengthEmpty(codes[..|codes| - 1], text);
    }
  }

  /** One more occurrence of `c` adds the length of its code. */
  lemma {:induction false} WeightedLengthCons(codes: Codes, c: char, rest: string)
    requires Valid(codes)
    ensures WeightedLength(codes, [c] + rest) == WeightedLength(codes, rest) + |Get(codes, c).GetOr("")|
    decreases |codes|
  {
    if |codes| > 0 {
      var init, e := codes[..|codes| - 1], codes[|codes| - 1];
      assert Valid(init);
      WeightedLengthCons(init, c, rest);
      LastEntryLookup(codes, c);
      assert multiset([c] + rest)[e.0] == multiset(rest)[e.0] + (if e.0 == c then 1 else 0);
    }
  }

  /** Looking up in a table without repeated keys: the last entry answers
      for its own key and for no other. */
  lemma LastEntryLookup(codes: Codes, c: char)
    requires Valid(codes) && |codes| > 0
    ensures var init, e := codes[..|codes| - 1], codes[|codes| - 1];
      Get(codes, c) == if e.0 == c then Some(e.1) else Get(init, c)
  {
    var init, e := codes[..|codes| - 1], codes[|codes| - 1];
    assert codes == init + [e];
    if e.0 == c {
      assert IndexOf(init, c) == None;
      assert codes == Set(init, c, e.1);
    } else {
      IndexOfAppend(init, e.0, e.1, c);
    }
  }

  /** What `compress` reports: the output is a bit string of at least one
      bit per symbol, and its size is the occurrence-weighted sum of the code
      lengths. */
  lemma CompressSizes(coder: Coder, text: string)
    ensures var result := Compress(coder, text).1;
      && IsBits(result.compressed)
      && result.compressedSize >= |text|
      && result.compressedSize == WeightedLength(result.codes, text)
  {
    if text != "" {
      CompressedCodesLand(text);
      var root := BuildHuffmanTree(BuildFrequencyTable(text));
      var codes := CodesOf(root);
      HuffmanTreeSymbols(text);
      CodeTableOfTree(root.value);
      EncodeLength(root.value, codes, text);
      EncodeWeightedLength(codes, text);
    } else {
      WeightedLengthEmpty([], text);
    }
  }

  /** A text of one repeated symbol compresses to one '0' per symbol. */
  lemma SingleSymbolCompress(coder: Coder, text: string, c: char)
    requires |text| > 0
    requires forall i :: 0 <= i < |text| ==> text[i] == c
    ensures Compress(coder, text).1.compressed == Zeros(|text|)
    ensures Compress(coder, text).1.codes == [(c, "0")]
  {
    var freq := BuildFrequencyTable(text);
    FrequencyEntries(text);
    assert text[0] == c;
    var keys := KeysOf(freq);
    DistinctKeysOnce(freq, c);
    assert c in keys;
    CountOfRepeated(keys, c);
    SingleSymbolCode(c, freq[0].1);
    EncodeZeros(text, c);
  }

  /** A sequence of one repeated value holds it as often as it is long. */
  lemma {:induction false} CountOfRepeated(s: string, c: char)
    requires forall i :: 0 <= i < |s| ==> s[i] == c
    ensures multiset(s)[c] == |s|
    decreases |s|
  {
    if |s| > 0 {
      CountOfRepeated(s[1..], c);
      assert s == [s[0]] + s[1..];
    }
  }

  lemma {:induction false} EncodeZeros(text: string, c: char)
    requires forall i :: 0 <= i < |text| ==> text[i] == c
    ensures Encode([(c, "0")], text) == Zeros(|text|)
    decreases |text|
  {
    if |text| > 0 {
      EncodeZeros(text[1..], c);
      assert Get([(c, "0")], c) == Some("0");
      assert Zeros(|text|) == "0" + Zeros(|text| - 1);
    }
  }
}

=== FILE: codes.dfy ===
/** `generateCodes` (src/lib/huffman.ts:127-138): a depth-first walk that
    extends the code by '0' into the left child and by '1' into the right
    child, and records the code of every leaf in the code table (a
    JavaScript `Map`, so a symbol is listed where it was first set). A leaf
    reached with the empty code gets "0". */
module CodeTable {
  import opened Optional
  import opened OrderedMap
  import opened HuffmanTree
  import opened Bits

  /** Symbol to code, in the order the walk reached the leaves. */
  type Codes = seq<(char, string)>

  /** `generateCodes(node, code, codes)`, where `None` is the `null` child
      on which the walk returns at once. */
  function GenerateCodes(node: Option<Tree>, code: string, codes: Codes): (r: Codes)
    ensures node.None? ==> r == codes
    ensures |codes| <= |r| && KeysOf(r)[..|codes|] == KeysOf(codes)
    decreases node, 1
  {
    match node
    case None => codes
    case Some(t) => GenerateTree(t, code, codes)
  }

  /** The walk below `t`: entries are only ever added or overwritten, so
      the keys already present keep their places. */
  function GenerateTree(t: Tree, code: string, codes: Codes): (r: Codes)
    ensures |codes| <= |r| && KeysOf(r)[..|codes|] == KeysOf(codes)
    decreases t, 0
  {
    match t
    case Leaf(c, _) =>
      SetKeys(codes, c, if code == "" then "0" else code);
      Set(codes, c, if code == "" then "0" else code)
    case Node(_, left, right) =>
      var mid := GenerateTree(left, code + "0", codes);
      var after := GenerateCodes(right, code + "1", mid);
      assert KeysOf(after)[..|codes|] == KeysOf(after)[..|mid|][..|codes|];
      after
  }

  /** The entry `e` was written by the walk of `t` entered with `code`: its
      code is a non-empty bit string that extends `code` by a path from `t`
      that lands on the leaf of its symbol. */
  predicate WrittenBy(t: Tree, code: string, e: (char, string)) {
    && |e.1| > 0 && IsBits(e.1)
    && IsPrefix(code, e.1)
    && LandsOn(t, e.1[|code|..], e.0)
  }

  /** `r` is `codes` followed by one entry per leaf of `t`, in left-to-right
      order, each written by the walk of `t` entered with `code`, and lists
      no key twice. */
  predicate Appends(t: Tree, code: string, codes: Codes, r: Codes) {
    && Valid(r)
    && |r| == |codes| + |Symbols(t)| && r[..|codes|] == codes
    && KeysOf(r) == KeysOf(codes) + Symbols(t)
    && forall i :: |codes| <= i < |r| ==> WrittenBy(t, code, r[i])
  }

  /** The walk of a tree without repeated symbols, entered with a non-empty
      code or at an internal node, on a table that has none of its
      symbols, appends the entries of its leaves. */
  lemma {:induction false} GenerateTreeEntries(t: Tree, code: string, codes: Codes)
    requires UniqueSymbols(t) && Valid(codes) && IsBits(code)
    requires t.Node? || |code| > 0
    requires forall c :: c in Symbols(t) ==> c !in KeysOf(codes)
    ensures Appends(t, code, codes, GenerateTree(t, code, codes))
    decreases t, 1
  {
    match t
    case Leaf(c, w) =>
      LeafEntry(c, w, code, codes);
    case Node(_, _, _) =>
      NodeEntries(t, code, codes);
  }

  /** The walk of an internal node: the entries of the left subtree, then
      those of the right subtree. */
  lemma {:induction false} NodeEntries(t: Tree, code: string, codes: Codes)
    requires t.Node? && UniqueSymbols(t) && Valid(codes) && IsBits(code)
    requires forall c :: c in Symbols(t) ==> c !in KeysOf(codes)
    ensures Appends(t, code, codes, GenerateTree(t, code, codes))
    decreases t, 0
  {
    UniqueChildren(t);
    ConcatBits(code, "0");
    LeftKeysFresh(t, codes);
    GenerateTreeEntries(t.left, code + "0", codes);
    var mid := GenerateTree(t.left, code + "0", codes);
    match t.right
    case None =>
      OneChildEntries(t, code, codes, mid);
    case Some(rt) =>
      ConcatBits(code, "1");
      assert Symbols(t) == Symbols(t.left) + Symbols(rt);
      RightKeysFresh(t, codes, mid);
      GenerateTreeEntries(rt, code + "1", mid);
      TwoChildEntries(t, code, codes, mid, GenerateTree(rt, code + "1", mid));
  }

  /** A node with only a left child appends what its left child appends. */
  lemma OneChildEntries(t: Tree, code: string, codes: Codes, mid: Codes)
    requires t.Node? && t.right.None?
    requires Appends(t.left, code + "0", codes, mid)
    ensures Appends(t, code, codes, mid)
  {
    assert Symbols(t) == Symbols(t.left);
    LeftEntries(t, code, codes, mid);
  }

  /** A node with two children appends what the left child appends, then
      what the right child appends. */
  lemma TwoChildEntries(t: Tree, code: string, codes: Codes, mid: Codes, r: Codes)
    requires t.Node? && t.right.Some?
    requires Symbols(t) == Symbols(t.left) + Symbols(t.right.value)
    requires Appends(t.left, code + "0", codes, mid)
    requires Appends(t.right.value, code + "1", mid, r)
    ensures Appends(t, code, codes, r)
  {
    var ls, rs := Symbols(t.left), Symbols(t.right.value);
    AppendedKeys(KeysOf(codes), KeysOf(mid), KeysOf(r), ls, rs);
    RightEntries(t, code, codes, mid, r);
  }

  /** Keys appended in two rounds are the keys appended in one. */
  lemma AppendedKeys(k0: seq<char>, k1: seq<char>, k2: seq<char>, ls: seq<char>, rs: seq<char>)
    requires k1 == k0 + ls && k2 == k1 + rs
    ensures k2 == k0 + (ls + rs) && |k2| == |k0| + |ls + rs|
  {
  }

  /** The entries of the left subtree are written by the walk of the node. */
  lemma LeftEntries(t: Tree, code: string, codes: Codes, mid: Codes)
    requires t.Node?
    requires |codes| <= |mid|
    requires forall i :: |codes| <= i < |mid| ==> WrittenBy(t.left, code + "0", mid[i])
    ensures forall i :: |codes| <= i < |mid| ==> WrittenBy(t, code, mid[i])
  {
    forall i | |codes| <= i < |mid| ensures WrittenBy(t, code, mid[i]) {
      ChildEntry(t, '0', t.left, code, mid[i]);
    }
  }

  /** The symbols of the left subtree are not in the table before the walk. */
  lemma LeftKeysFresh(t: Tree, codes: Codes)
    requires t.Node?
    requires forall c :: c in Symbols(t) ==> c !in KeysOf(codes)
    ensures forall c :: c in Symbols(t.left) ==> c !in KeysOf(codes)
  {
    match t.right
    case None =>
    case Some(rt) => assert Symbols(t) == Symbols(t.left) + Symbols(rt);
  }

  /** Appending the right subtree's entries to the left subtree's keeps
      every new entry written by the walk of the node. */
  lemma RightEntries(t: Tree, code: string, codes: Codes, mid: Codes, r: Codes)
    requires t.Node? && t.right.Some?
    requires |codes| <= |mid| && mid[..|codes|] == codes
    requires forall i :: |codes| <= i < |mid| ==> WrittenBy(t.left, code + "0", mid[i])
    requires |mid| <= |r| && r[..|mid|] == mid
    requires forall i :: |mid| <= i < |r| ==> WrittenBy(t.right.value, code + "1", r[i])
    ensures r[..|codes|] == codes
    ensures forall i :: |codes| <= i < |r| ==> WrittenBy(t, code, r[i])
  {
    assert r[..|codes|] == mid[..|codes|];
    LeftEntries(t, code, codes, mid);
    forall i | |codes| <= i < |r| ensures WrittenBy(t, code, r[i]) {
      if i < |mid| {
        assert r[i] == mid[i];
      } else {
        ChildEntry(t, '1', t.right.value, code, r[i]);
      }
    }
  }

  /** A leaf reached with a non-empty code appends its symbol with that code. */
  lemma LeafEntry(c: char, w: nat, code: string, codes: Codes)
    requires Valid(codes) && IsBits(code) && |code| > 0
    requires c !in KeysOf(codes)
    ensures var r := GenerateTree(Leaf(c, w), code, codes);
      && Valid(r) && r == codes + [(c, code)]
      && KeysOf(r) == KeysOf(codes) + [c]
  {
    GetDefined(codes, c);
    SetKeys(codes, c, code);
  }

  /** The symbols of the right subtree are not yet in the table after the
      walk of the left subtree. */
  lemma RightKeysFresh(t: Tree, codes: Codes, mid: Codes)
    requires t.Node? && t.right.Some? && UniqueSymbols(t)
    requires Symbols(t) == Symbols(t.left) + Symbols(t.right.value)
    requires forall c :: c in Symbols(t) ==> c !in KeysOf(codes)
    requires KeysOf(mid) == KeysOf(codes) + Symbols(t.left)
    ensures forall c :: c in Symbols(t.right.value) ==> c !in KeysOf(mid)
  {
    UniqueChildren(t);
  }

  /** An entry written by the walk of a child, entered with the parent's
      code extended by the child's bit, is written by the walk of the
      parent. */
  lemma ChildEntry(t: Tree, bit: char, child: Tree, code: string, e: (char, string))
    requires Step(t, bit) == Some(child)
    requires WrittenBy(child, code + [bit], e)
    ensures WrittenBy(t, code, e)
  {
    var path := e.1[|code|..];
    assert path == [bit] + e.1[|code| + 1..];
    assert path[1..] == e.1[|code| + 1..];
  }

  /** The table `compress` builds: `codes.clear()`, then the walk from the
      root with the empty code. */
  function CodesOf(root: Option<Tree>): Codes {
    GenerateCodes(root, "", [])
  }

  /** The code table of a tree rooted at an internal node, without repeated
      symbols: one entry per leaf, in left-to-right order, and each code is
      the non-empty path of '0' (left) and '1' (right) to the leaf of its
      symbol. */
  lemma CodeTableOfTree(t: Tree)
    requires t.Node? && UniqueSymbols(t)
    ensures var r := CodesOf(Some(t));
      && Valid(r)
      && KeysOf(r) == Symbols(t)
      && forall i :: 0 <= i < |r| ==> |r[i].1| > 0 && IsBits(r[i].1) && LandsOn(t, r[i].1, r[i].0)
  {
    GenerateTreeEntries(t, "", []);
    var r := CodesOf(Some(t));
    forall i | 0 <= i < |r| ensures |r[i].1| > 0 && IsBits(r[i].1) && LandsOn(t, r[i].1, r[i].0) {
      assert WrittenBy(t, "", r[i]);
      assert r[i].1[0..] == r[i].1;
    }
  }

  /** No code of the table is a prefix of the code of another symbol. */
  lemma CodeTableIsPrefixFree(t: Tree)
    requires t.Node? && UniqueSymbols(t)
    ensures var r := CodesOf(Some(t));
      forall i, j :: 0 <= i < |r| && 0 <= j < |r| && i != j ==> !IsPrefix(r[i].1, r[j].1)
  {
    var r := CodesOf(Some(t));
    CodeTableOfTree(t);
    forall i, j | 0 <= i < |r| && 0 <= j < |r| && i != j && IsPrefix(r[i].1, r[j].1)
      ensures false
    {
      LandingPathsArePrefixFree(t, r[i].1, r[j].1, r[i].0, r[j].0);
    }
  }

  /** With one symbol the tree is the synthetic root over the lone leaf, and
      the symbol's code is "0". */
  lemma SingleSymbolCode(c: char, w: nat)
    ensures CodesOf(Some(Node(w, Leaf(c, w), None))) == [(c, "0")]
  {
    var empty: Codes := [];
    var root := Node(w, Leaf(c, w), None);
    assert "" + "0" == "0";
    assert GenerateTree(root, "", empty) == GenerateTree(Leaf(c, w), "0", empty);
    LeafRoot(c, w, "0");
  }

  lemma LeafRoot(c: char, w: nat, code: string)
    requires |code| > 0
    ensures GenerateTree(Leaf(c, w), code, []) == [(c, code)]
  {
    var empty: Codes := [];
    assert IndexOf(empty, c) == None;
    assert Set(empty, c, code) == [(c, code)];
  }

  /** A lone leaf as root is reached with the empty code, which `|| '0'`
      turns into "0". `compress` never reaches this case: `buildHuffmanTree`
      puts even a single leaf under an internal root (`SingleSymbolCode`), so
      this only describes `generateCodes` called on a bare leaf. */
  lemma LeafRootCode(c: char, w: nat)
    ensures CodesOf(Some(Leaf(c, w))) == [(c, "0")]
  {
    var empty: Codes := [];
    assert GenerateTree(Leaf(c, w), "", empty) == Set(empty, c, "0");
    LeafRoot(c, w, "0");
  }
}

=== FILE: facade.dfy ===
/** `compressFile` (src/lib/huffman.ts:222-246): compresses with a fresh
    `HuffmanCoding`, packs the bits into base64 text, lists the code table
    and adds the two size statistics. The statistics are exact rationals
    here. */
module Facade {
  import opened Optional
  import opened Bits
  import opened CodeTable
  import opened Codec
  import opened Base64
  import opened Packing

  /** `CompressionResult`: `codes` is `Array.from(codes.entries())`, the
      table in insertion order. */
  datatype CompressionResult = CompressionResult(
    compressed: string,
    codes: Codes,
    originalSize: nat,
    compressedSize: nat,
    compressionRatio: real,
    savings: real)

  /** `compressedSize / originalSize`, or 0 for an empty input. */
  function Ratio(originalSize: nat, compressedSize: nat): real {
    if originalSize > 0 then compressedSize as real / originalSize as real else 0.0
  }

  /** `(originalSize - compressedSize) / originalSize * 100`, or 0 for an
      empty input. */
  function Savings(originalSize: nat, compressedSize: nat): real {
    if originalSize > 0 then (originalSize - compressedSize) as real / originalSize as real * 100.0 else 0.0
  }

  /** The result lists the code table of the compression. Its sizes are 8
      bits per symbol and the code bits, and the ratio is the second over the
      first. The savings are the ratio's complement, and the ratio is at least
      1/8; both are 0 for an empty file. The packed text unpacks to the
      compressed bits. */
  function CompressFile(content: string): (r: CompressionResult)
    ensures var bits := Compress(NewCoder, content).1.compressed;
      IsBits(bits) && r.compressed == BinaryToBase64(bits)
    ensures r.codes == Compress(NewCoder, content).1.codes
    ensures r.originalSize == 8 * |content|
    ensures r.compressedSize == |Compress(NewCoder, content).1.compressed|
    ensures content == "" ==> r.compressionRatio == 0.0 && r.savings == 0.0
    ensures content != "" ==> r.compressionRatio == r.compressedSize as real / r.originalSize as real
    ensures content != "" ==> r.savings == (1.0 - r.compressionRatio) * 100.0 && r.compressionRatio >= 1.0 / 8.0
    ensures Base64ToBinary(r.compressed, r.compressedSize) == Some(Compress(NewCoder, content).1.compressed)
  {
    var result := Compress(NewCoder, content).1;
    CompressSizes(NewCoder, content);
    PackRoundTrip(result.compressed);
    var report := CompressionResult(
      BinaryToBase64(result.compressed),
      result.codes,
      result.originalSize,
      result.compressedSize,
      Ratio(result.originalSize, result.compressedSize),
      Savings(result.originalSize, result.compressedSize));
    if content == "" then report
    else
      SavingsComplementRatio(result.originalSize, result.compressedSize);
      RatioAtLeastEighth(|content|, result.compressedSize);
      report
  }

  /** The savings are the complement of the ratio in percent, and the ratio
      is never below 1/8, since every symbol costs at least one bit against
      eight. */
  lemma {:induction false} SavingsComplementRatio(originalSize: nat, compressedSize: nat)
    requires originalSize > 0
    ensures Savings(originalSize, compressedSize) == (1.0 - Ratio(originalSize, compressedSize)) * 100.0
  {
    var o, c := originalSize as real, compressedSize as real;
    assert (originalSize - compressedSize) as real == o - c;
    assert (o - c) / o == 1.0 - c / o by {
      assert (o - c) / o == o / o - c / o;
      assert o / o == 1.0;
    }
  }

  /** Eight bits per symbol before and at least one after: the ratio is
      at least 1/8. */
  lemma {:induction false} RatioAtLeastEighth(symbols: nat, compressedSize: nat)
    requires symbols > 0 && compressedSize >= symbols
    ensures Ratio(8 * symbols, compressedSize) >= 1.0 / 8.0
  {
    var n, c := symbols as real, compressedSize as real;
    assert (8 * symbols) as real == 8.0 * n;
    assert c / (8.0 * n) - n / (8.0 * n) == (c - n) / (8.0 * n);
    assert n / (8.0 * n) == 1.0 / 8.0;
  }

  /** An empty file gives an empty result with zero statistics. */
  lemma EmptyFile()
    ensures CompressFile("") == CompressionResult("", [], 0, 0, 0.0, 0.0)
  {
    var r := CompressFile("");
    assert r.codes == [] && r.originalSize == 0 && r.compressedSize == 0;
    assert r.compressionRatio == 0.0 && r.savings == 0.0;
    PackEmpty();
  }

  /** Unpacking the result with its bit count and decoding it with the tree
      the compression built gives the file back. */
  lemma CompressFileRoundTrip(content: string)
    ensures var r := CompressFile(content);
      var bits := Base64ToBinary(r.compressed, r.compressedSize);
      && bits.Some?
      && Decompress(bits.value, Compress(NewCoder, content).0.root) == Some(content)
  {
    var result := Compress(NewCoder, content).1;
    CompressSizes(NewCoder, content);
    PackRoundTrip(result.compressed);
    CompressRoundTrip(NewCoder, content);
  }
}

=== FILE: forest.dfy ===
/** Order-independent summaries of the trees held in the priority queue,
    used to show that the heap's reshuffling loses no leaf and no weight. */
module Forest {
  import opened Optional
  import opened HuffmanTree

  /** What a queue of trees holds, independent of the order of the trees:
      the leaves' (symbol, count) pairs, the leaf symbols and the weights. */
  function ForestPairs(f: seq<Tree>): multiset<(char, nat)> {
    if |f| == 0 then multiset{} else ForestPairs(f[..|f| - 1]) + multiset(LeafPairs(f[|f| - 1]))
  }

  function ForestSymbols(f: seq<Tree>): multiset<char> {
    if |f| == 0 then multiset{} else ForestSymbols(f[..|f| - 1]) + multiset(Symbols(f[|f| - 1]))
  }

  function ForestWeight(f: seq<Tree>): nat {
    if |f| == 0 then 0 else ForestWeight(f[..|f| - 1]) + f[|f| - 1].weight
  }

  /** The summaries do not depend on the order of the trees, so the heap's
      reshuffling leaves them unchanged. */
  lemma {:induction false} ForestPermutation(a: seq<Tree>, b: seq<Tree>)
    requires multiset(a) == multiset(b)
    ensures ForestPairs(a) == ForestPairs(b)
    ensures ForestSymbols(a) == ForestSymbols(b)
    ensures ForestWeight(a) == ForestWeight(b)
    decreases |a|
  {
    if |a| == 0 {
      assert |b| == |multiset(b)| == 0;
    } else {
      var init, x := a[..|a| - 1], a[|a| - 1];
      assert a == init + [x];
      assert x in multiset(b);
      var k :| 0 <= k < |b| && b[k] == x;
      var b' := Without(b, k);
      WithoutPairs(b, k);
      WithoutSymbols(b, k);
      WithoutWeight(b, k);
      assert multiset(a) == multiset(init) + multiset{x};
      MultisetCancel(multiset(init), multiset(b'), x);
      ForestPermutation(init, b');
      ForestSnoc(init, x);
      assert ForestPairs(a) == ForestPairs(b') + multiset(LeafPairs(x)) == ForestPairs(b);
      assert ForestSymbols(a) == ForestSymbols(b') + multiset(Symbols(x)) == ForestSymbols(b);
      assert ForestWeight(a) == ForestWeight(b') + x.weight == ForestWeight(b);
    }
  }

  lemma MultisetCancel<T>(p: multiset<T>, q: multiset<T>, x: T)
    requires p + multiset{x} == q + multiset{x}
    ensures p == q
  {
    forall y ensures p[y] == q[y] {
      assert (p + multiset{x})[y] == (q + multiset{x})[y];
    }
  }

  /** The queue with the tree at position `k` taken out. */
  function Without(b: seq<Tree>, k: nat): (rest: seq<Tree>)
    requires k < |b|
    ensures |rest| == |b| - 1
    ensures multiset(b) == multiset(rest) + multiset{b[k]}
  {
    assert b == b[..k] + [b[k]] + b[k + 1..];
    b[..k] + b[k + 1..]
  }

  /** Taking out a tree other than the last commutes with dropping the last. */
  lemma WithoutLast(b: seq<Tree>, k: nat)
    requires k < |b| - 1
    ensures Without(b, k)[..|b| - 2] == Without(b[..|b| - 1], k)
    ensures Without(b, k)[|b| - 2] == b[|b| - 1]
  {
  }

  /** Taking out the tree at position `k` takes out its leaves, ... */
  lemma {:induction false} WithoutPairs(b: seq<Tree>, k: nat)
    requires k < |b|
    ensures ForestPairs(b) == ForestPairs(Without(b, k)) + multiset(LeafPairs(b[k]))
    decreases |b|
  {
    if k < |b| - 1 {
      WithoutLast(b, k);
      WithoutPairs(b[..|b| - 1], k);
    } else {
      assert Without(b, k) == b[..|b| - 1];
    }
  }

  /** ... its symbols ... */
  lemma {:induction false} WithoutSymbols(b: seq<Tree>, k: nat)
    requires k < |b|
    ensures ForestSymbols(b) == ForestSymbols(Without(b, k)) + multiset(Symbols(b[k]))
    decreases |b|
  {
    if k < |b| - 1 {
      WithoutLast(b, k);
      WithoutSymbols(b[..|b| - 1], k);
    } else {
      assert Without(b, k) == b[..|b| - 1];
    }
  }

  /** ... and its weight. */
  lemma {:induction false} WithoutWeight(b: seq<Tree>, k: nat)
    requires k < |b|
    ensures ForestWeight(b) == ForestWeight(Without(b, k)) + b[k].weight
    decreases |b|
  {
    if k < |b| - 1 {
      WithoutLast(b, k);
      WithoutWeight(b[..|b| - 1], k);
    } else {
      assert Without(b, k) == b[..|b| - 1];
    }
  }

  /** Appending one tree adds its own summaries. */
  lemma ForestSnoc(f: seq<Tree>, t: Tree)
    ensures ForestPairs(f + [t]) == ForestPairs(f) + multiset(LeafPairs(t))
    ensures ForestSymbols(f + [t]) == ForestSymbols(f) + multiset(Symbols(t))
    ensures ForestWeight(f + [t]) == ForestWeight(f) + t.weight
  {
    assert (f + [t])[..|f|] == f;
  }

  /** Enqueueing a tree adds its summaries to the queue's. */
  lemma EnqueueKeepsForest(before: seq<Tree>, t: Tree, after: seq<Tree>)
    requires multiset(after) == multiset(before) + multiset{t}
    ensures ForestPairs(after) == ForestPairs(before) + multiset(LeafPairs(t))
    ensures ForestSymbols(after) == ForestSymbols(before) + multiset(Symbols(t))
    ensures ForestWeight(after) == ForestWeight(before) + t.weight
  {
    ForestPermutation(after, before + [t]);
    ForestSnoc(before, t);
  }

  /** The trees in a queue after enqueueing `t` are `t` and those before. */
  lemma EnqueueMembers(before: seq<Tree>, t: Tree, after: seq<Tree>)
    requires multiset(after) == multiset(before) + multiset{t}
    ensures forall u :: u in after <==> u in before || u == t
  {
    forall u ensures u in after <==> u in before || u == t {
      assert u in after <==> u in multiset(after);
      assert u in before <==> u in multiset(before);
    }
  }
}

=== FILE: frequency.dfy ===
/** `buildFrequencyTable` (src/lib/huffman.ts:86-92): one pass over the
    text that bumps the count of each symbol in a JavaScript `Map`. */
module Frequency {
  import opened Optional
  import opened OrderedMap

  /** Symbol counts in order of first occurrence. */
  type FrequencyTable = seq<(char, nat)>

  /** `freq` maps exactly the symbols of `text`, each to its number of
      occurrences. */
  predicate Counts(freq: FrequencyTable, text: string) {
    forall c :: Get(freq, c) == if c in text then Some(multiset(text)[c]) else None
  }

  /** The table after reading the whole of `text`, one symbol at a time. */
  function BuildFrequencyTable(text: string): (freq: FrequencyTable)
    ensures Valid(freq)
    ensures Counts(freq, text)
    decreases |text|
  {
    if |text| == 0 then []
    else
      var prefix := text[..|text| - 1];
      var c := text[|text| - 1];
      var before := BuildFrequencyTable(prefix);
      var after := Bump(before, c);
      CountStep(text, before, after);
      after
  }

  /** `freq.set(c, (freq.get(c) || 0) + 1)`. */
  function Bump(freq: FrequencyTable, c: char): (r: FrequencyTable)
    ensures Get(r, c) == Some(Get(freq, c).GetOr(0) + 1)
    ensures forall d :: d != c ==> Get(r, d) == Get(freq, d)
    ensures Valid(freq) ==> Valid(r)
  {
    Set(freq, c, Get(freq, c).GetOr(0) + 1)
  }

  /** One iteration of the counting loop adds the last symbol's occurrence. */
  lemma CountStep(text: string, before: FrequencyTable, after: FrequencyTable)
    requires |text| > 0
    requires Counts(before, text[..|text| - 1])
    requires after == Bump(before, text[|text| - 1])
    ensures Counts(after, text)
  {
    var prefix := text[..|text| - 1];
    var last := text[|text| - 1];
    assert text == prefix + [last];
    forall d ensures Get(after, d) == if d in text then Some(multiset(text)[d]) else None {
      CountOfSymbol(prefix, last, before, after, d);
    }
  }

  /** The count of one symbol after reading one more symbol `last`. */
  lemma CountOfSymbol(prefix: string, last: char, before: FrequencyTable, after: FrequencyTable, d: char)
    requires Get(before, d) == if d in prefix then Some(multiset(prefix)[d]) else None
    requires Get(before, last) == if last in prefix then Some(multiset(prefix)[last]) else None
    requires after == Bump(before, last)
    ensures var text := prefix + [last];
      Get(after, d) == if d in text then Some(multiset(text)[d]) else None
  {
    var text := prefix + [last];
    assert multiset(text) == multiset(prefix) + multiset{last};
    assert d in text <==> d in prefix || d == last;
    if d == last {
      if d !in prefix {
        assert multiset(prefix)[d] == 0;
      }
    }
  }

  /** The sum of all counts. */
  function Total(freq: FrequencyTable): nat {
    if |freq| == 0 then 0 else Total(freq[..|freq| - 1]) + freq[|freq| - 1].1
  }

  /** The keys of the table are exactly the symbols of the text, each listed
      once, and each carries its number of occurrences, which is at least 1. */
  lemma FrequencyEntries(text: string)
    ensures var freq := BuildFrequencyTable(text);
      && (forall c :: c in KeysOf(freq) <==> c in text)
      && (forall i :: 0 <= i < |freq| ==> freq[i].1 == multiset(text)[freq[i].0] >= 1)
  {
    var freq := BuildFrequencyTable(text);
    forall i | 0 <= i < |freq| ensures freq[i].1 == multiset(text)[freq[i].0] >= 1 {
      GetEntry(freq, i);
    }
  }

  /** The counts add up to the length of the text. */
  lemma {:induction false} TotalIsLength(text: string)
    ensures Total(BuildFrequencyTable(text)) == |text|
    decreases |text|
  {
    if |text| > 0 {
      var prefix := text[..|text| - 1];
      var c := text[|text| - 1];
      var before := BuildFrequencyTable(prefix);
      TotalIsLength(prefix);
      TotalAfterBump(before, c);
    }
  }

  /** Counting one more occurrence adds one to the total. */
  lemma TotalAfterBump(m: FrequencyTable, c: char)
    ensures Total(Bump(m, c)) == Total(m) + 1
  {
    var n: nat := Get(m, c).GetOr(0);
    assert Bump(m, c) == Set(m, c, n + 1);
    TotalAfterSet(m, c, n + 1);
  }

  /** Setting a key changes the total by the difference of the new and the
      old count. */
  lemma {:induction false} TotalAfterSet(m: FrequencyTable, k: char, v: nat)
    ensures Total(Set(m, k, v)) == Total(m) - Get(m, k).GetOr(0) + v
  {
    match IndexOf(m, k)
    case None =>
      assert Set(m, k, v) == m + [(k, v)];
      assert (m + [(k, v)])[..|m|] == m;
    case Some(i) =>
      assert Set(m, k, v) == m[i := (k, v)];
      TotalAfterUpdate(m, i, v);
  }

  lemma {:induction false} TotalAfterUpdate(m: FrequencyTable, i: nat, v: nat)
    requires i < |m|
    ensures Total(m[i := (m[i].0, v)]) == Total(m) - m[i].1 + v
    decreases |m|
  {
    var m' := m[i := (m[i].0, v)];
    if i < |m| - 1 {
      assert m'[..|m'| - 1] == m[..|m| - 1][i := (m[i].0, v)];
      TotalAfterUpdate(m[..|m| - 1], i, v);
    } else {
      assert m'[..|m'| - 1] == m[..|m| - 1];
    }
  }
}

=== FILE: optional.dfy ===
/** A result that may be missing: what the model uses for JavaScript's
    `null` and `undefined`, and for a call that throws. */
module Optional {

  datatype Option<T> = None | Some(value: T) {

    /** `x || fallback` where a present `x` is never falsy. */
    function GetOr(fallback: T): T {
      if Some? then value else fallback
    }
  }
}

=== FILE: ordered_map.dfy ===
/** A JavaScript `Map`: an association list kept in insertion order, where
    `set` on a present key replaces its value in place and `set` on a new key
    appends it. Both tables of the codec (symbol counts and symbol codes) are
    such maps, and their iteration order matters: it fixes the order in which
    leaves enter the priority queue and the order of the listed code table. */
module OrderedMap {
  import opened Optional

  /** The keys, in insertion order. */
  function KeysOf<K, V>(m: seq<(K, V)>): (ks: seq<K>)
    ensures |ks| == |m|
    ensures forall i :: 0 <= i < |m| ==> ks[i] == m[i].0
  {
    seq(|m|, i requires 0 <= i < |m| => m[i].0)
  }

  /** Every key occurs at most once. */
  predicate Valid<K(==), V>(m: seq<(K, V)>) {
    forall i, j :: 0 <= i < j < |m| ==> m[i].0 != m[j].0
  }

  /** The position of the first entry whose key is `k`. */
  function IndexOf<K(==), V>(m: seq<(K, V)>, k: K): (r: Option<nat>)
    ensures r.Some? ==> r.value < |m| && m[r.value].0 == k
    ensures r.Some? ==> forall i :: 0 <= i < r.value ==> m[i].0 != k
    ensures r.None? ==> forall i :: 0 <= i < |m| ==> m[i].0 != k
  {
    if |m| == 0 then None
    else if m[0].0 == k then Some(0)
    else
      match IndexOf(m[1..], k)
      case None => None
      case Some(j) => Some(j + 1)
  }

  /** `map.get(k)`: the value stored under `k`, or `None` for `undefined`. */
  function Get<K(==), V>(m: seq<(K, V)>, k: K): Option<V> {
    match IndexOf(m, k)
    case None => None
    case Some(i) => Some(m[i].1)
  }

  /** A key has a value exactly when it is one of the keys. */
  lemma GetDefined<K, V>(m: seq<(K, V)>, k: K)
    ensures Get(m, k).Some? <==> k in KeysOf(m)
  {
    if k in KeysOf(m) {
      var i :| 0 <= i < |m| && KeysOf(m)[i] == k;
      assert m[i].0 == k;
    }
  }

  /** `map.set(k, v)`. */
  function Set<K(==, !new), V>(m: seq<(K, V)>, k: K, v: V): (r: seq<(K, V)>)
    ensures Get(r, k) == Some(v)
    ensures forall k' :: k' != k ==> Get(r, k') == Get(m, k')
    ensures Valid(m) ==> Valid(r)
  {
    match IndexOf(m, k)
    case None =>
      var r := m + [(k, v)];
      assert r[|m|].0 == k;
      assert KeysOf(r) == KeysOf(m) + [k];
      assert forall k' :: k' != k ==> IndexOf(r, k') == IndexOf(m, k') by {
        forall k' | k' != k ensures IndexOf(r, k') == IndexOf(m, k') {
          IndexOfAppend(m, k, v, k');
        }
      }
      r
    case Some(i) =>
      var r := m[i := (k, v)];
      assert KeysOf(r) == KeysOf(m);
      assert forall k' :: IndexOf(r, k') == IndexOf(m, k') by {
        forall k' ensures IndexOf(r, k') == IndexOf(m, k') {
          IndexOfSameKeys(r, m, k');
        }
      }
      r
  }

  /** `set` keeps a present key in its place and appends a new key last. */
  lemma SetKeys<K(!new), V>(m: seq<(K, V)>, k: K, v: V)
    ensures k in KeysOf(m) ==> KeysOf(Set(m, k, v)) == KeysOf(m)
    ensures k !in KeysOf(m) ==> KeysOf(Set(m, k, v)) == KeysOf(m) + [k]
  {
    GetDefined(m, k);
    match IndexOf(m, k)
    case None =>
      assert KeysOf(m + [(k, v)]) == KeysOf(m) + [k];
    case Some(i) =>
      assert KeysOf(m[i := (k, v)]) == KeysOf(m);
  }

  /** Appending an entry for another key does not move the first occurrence of `k'`. */
  lemma {:induction false} IndexOfAppend<K, V>(m: seq<(K, V)>, k: K, v: V, k': K)
    requires k' != k
    ensures IndexOf(m + [(k, v)], k') == IndexOf(m, k')
  {
    if |m| == 0 {
    } else if m[0].0 == k' {
    } else {
      assert (m + [(k, v)])[1..] == m[1..] + [(k, v)];
      IndexOfAppend(m[1..], k, v, k');
    }
  }

  /** Lookup positions depend on the keys only. */
  lemma {:induction false} IndexOfSameKeys<K, V>(m: seq<(K, V)>, m': seq<(K, V)>, k: K)
    requires KeysOf(m) == KeysOf(m')
    ensures IndexOf(m, k) == IndexOf(m', k)
    decreases |m|
  {
    assert |m| == |m'|;
    if |m| == 0 {
    } else {
      assert m[0].0 == KeysOf(m)[0] == KeysOf(m')[0] == m'[0].0;
      if m[0].0 != k {
        assert KeysOf(m[1..]) == KeysOf(m)[1..];
        assert KeysOf(m'[1..]) == KeysOf(m')[1..];
        IndexOfSameKeys(m[1..], m'[1..], k);
      }
    }
  }

  /** In a map without repeated keys, looking up the key of an entry yields
      that entry's value. */
  lemma GetEntry<K, V>(m: seq<(K, V)>, i: nat)
    requires Valid(m) && i < |m|
    ensures Get(m, m[i].0) == Some(m[i].1)
  {
  }
}

=== FILE: packing.dfy ===
/** `binaryToBase64` and `base64ToBinary` (src/lib/huffman.ts:193-219): the
    compressed bit string is padded with zero bits to a whole number of
    bytes, each 8-bit group is read as a character code and the resulting
    byte string goes through `btoa`; unpacking runs `atob`, writes every
    character code back as 8 bits and keeps the first `originalLength`
    bits. */
module Packing {
  import opened Optional
  import opened Bits
  import opened Base64

  /** `binaryToBase64`: defined on strings of '0' and '1', which is what
      `compress` produces. */
  function BinaryToBase64(binary: string): (s: string)
    requires IsBits(binary)
    ensures |s| % 4 == 0
  {
    var padded := binary + Zeros(PadTo(|binary|, 8));
    Btoa(BitsToBytes(padded))
  }

  /** The loop of `charCodeAt(i).toString(2).padStart(8, '0')`. */
  function ExpandBytes(data: seq<Byte>): (bits: string)
    ensures |bits| == 8 * |data|
    decreases |data|
  {
    if |data| == 0 then ""
    else
      assert Pow2(8) == 256;
      PaddedRadix2(data[0], 8);
      PadStart(Radix2(data[0]), 8) + ExpandBytes(data[1..])
  }

  /** `s.substr(0, length)`: a negative length keeps nothing and a length
      past the end keeps everything. */
  function Prefix(s: string, length: int): (r: string)
    ensures |r| == if length < 0 then 0 else if length > |s| then |s| else length
    ensures r == s[..|r|]
  {
    if length < 0 then "" else if length > |s| then s else s[..length]
  }

  /** `base64ToBinary`: `None` where `atob` throws. */
  function Base64ToBinary(base64: string, originalLength: int): (r: Option<string>)
    ensures r.None? <==> Atob(base64).None?
    ensures r.Some? ==> r.value == Prefix(BytesToBits(Atob(base64).value), originalLength)
    ensures r.Some? ==> |r.value| <= 8 * |Atob(base64).value|
  {
    match Atob(base64)
    case None => None
    case Some(data) =>
      ExpandIsBits(data);
      Some(Prefix(ExpandBytes(data), originalLength))
  }

  /** Each byte expands to the same 8 bits the packer read it from. */
  lemma {:induction false} ExpandIsBits(data: seq<Byte>)
    ensures ExpandBytes(data) == BytesToBits(data)
    decreases |data|
  {
    if |data| > 0 {
      assert Pow2(8) == 256;
      PaddedRadix2(data[0], 8);
      ExpandIsBits(data[1..]);
    }
  }

  /** Reading the 8-bit groups and writing them back gives the bits again. */
  lemma {:induction false} BitsToBytesRoundTrip(bits: string)
    requires |bits| % 8 == 0 && IsBits(bits)
    ensures BytesToBits(BitsToBytes(bits)) == bits
    decreases |bits|
  {
    if |bits| > 0 {
      var group := bits[..8];
      assert IsBits(group) by {
        forall i | 0 <= i < 8 ensures group[i] == '0' || group[i] == '1' {
          assert group[i] == bits[i];
        }
      }
      assert IsBits(bits[8..]) by {
        forall i | 0 <= i < |bits| - 8 ensures bits[8..][i] == '0' || bits[8..][i] == '1' {
          assert bits[8..][i] == bits[i + 8];
        }
      }
      FixedWidthOfParse(group);
      BitsToBytesRoundTrip(bits[8..]);
      assert bits == group + bits[8..];
    }
  }

  /** Unpacking what was packed, with the original bit count, gives the
      original bits back, whatever their number. */
  lemma PackRoundTrip(binary: string)
    requires IsBits(binary)
    ensures Base64ToBinary(BinaryToBase64(binary), |binary|) == Some(binary)
  {
    var padded := binary + Zeros(PadTo(|binary|, 8));
    var data := BitsToBytes(padded);
    ConcatBits(binary, Zeros(PadTo(|binary|, 8)));
    BtoaRoundTrip(data);
    ExpandIsBits(data);
    BitsToBytesRoundTrip(padded);
    assert padded[..|binary|] == binary;
  }

  /** No bits pack into the empty text. */
  lemma PackEmpty()
    ensures BinaryToBase64("") == ""
  {
    assert PadTo(0, 8) == 0;
    assert "" + Zeros(PadTo(0, 8)) == "";
    assert BitsToBytes("") == [];
    assert BinaryToBase64("") == Btoa([]);
    assert PadTo(0, 6) == 0 && PadTo(0, 4) == 0;
    assert GroupBits([]) == "";
    assert EncodeGroups("") == "";
  }

  /** The bits take one byte per 8 bits, the last byte rounded up, and the
      packed text four characters for every three bytes, the last group
      rounded up. */
  lemma PackedLength(binary: string)
    requires IsBits(binary)
    ensures var bytes := (|binary| + 7) / 8;
      |BinaryToBase64(binary)| == 4 * ((bytes + 2) / 3)
  {
    var n := |binary|;
    var data := BitsToBytes(binary + Zeros(PadTo(n, 8)));
    assert |data| == (n + 7) / 8 by {
      var q, r := n / 8, n % 8;
      assert n == 8 * q + r;
      if r == 0 {
        assert n + PadTo(n, 8) == 8 * q;
      } else {
        assert n + PadTo(n, 8) == 8 * (q + 1);
      }
    }
    BtoaLength(data);
  }
}

=== FILE: priority_queue.dfy ===
/** `PriorityQueue` (src/lib/huffman.ts:17-78): a binary min-heap of trees
    keyed by weight, stored in an array where the children of position `i`
    sit at `2i+1` and `2i+2`. The array is a sequence here and each mutating
    operation returns the new sequence. */
module PriorityQueue {
  import opened Optional
  import opened HuffmanTree

  function Parent(i: nat): nat
    requires i > 0
  {
    (i - 1) / 2
  }

  /** No tree weighs less than its parent. */
  predicate IsMinHeap(h: seq<Tree>) {
    forall i :: 0 < i < |h| ==> h[Parent(i)].weight <= h[i].weight
  }

  /** The state inside `heapifyUp` with the moving element at `i`: the heap
      order holds everywhere except between `i` and its parent, and the
      parent of `i` is no heavier than the children of `i`. */
  predicate SiftingUp(h: seq<Tree>, i: nat) {
    && i < |h|
    && (forall j :: 0 < j < |h| && j != i ==> h[Parent(j)].weight <= h[j].weight)
    && (i > 0 ==> forall j :: 0 < j < |h| && Parent(j) == i ==> h[Parent(i)].weight <= h[j].weight)
  }

  /** The state inside `heapifyDown` with the moving element at `i`: the heap
      order holds everywhere except between `i` and its children, and the
      parent of `i` is no heavier than the children of `i`. */
  predicate SiftingDown(h: seq<Tree>, i: nat) {
    && i < |h|
    && (forall j :: 0 < j < |h| && Parent(j) != i ==> h[Parent(j)].weight <= h[j].weight)
    && (i > 0 ==> forall j :: 0 < j < |h| && Parent(j) == i ==> h[Parent(i)].weight <= h[j].weight)
  }

  /** The destructuring swap `[a[i], a[j]] = [a[j], a[i]]`. */
  function Swap(h: seq<Tree>, i: nat, j: nat): (r: seq<Tree>)
    requires i < |h| && j < |h|
    ensures |r| == |h| && r[i] == h[j] && r[j] == h[i]
    ensures forall k :: 0 <= k < |h| && k != i && k != j ==> r[k] == h[k]
    ensures multiset(r) == multiset(h)
  {
    h[i := h[j]][j := h[i]]
  }

  /** `heapifyUp` (src/lib/huffman.ts:43-51): moves the element at `i` up
      while its parent is strictly heavier. */
  function SiftUp(h: seq<Tree>, i: nat): (r: seq<Tree>)
    requires SiftingUp(h, i)
    ensures IsMinHeap(r)
    ensures multiset(r) == multiset(h)
    ensures |r| == |h|
    decreases i
  {
    if i == 0 then h
    else
      var p := Parent(i);
      if h[p].weight <= h[i].weight then h
      else
        SwapUpKeepsSifting(h, i);
        SiftUp(Swap(h, p, i), p)
  }

  lemma SwapUpKeepsSifting(h: seq<Tree>, i: nat)
    requires SiftingUp(h, i) && i > 0 && h[Parent(i)].weight > h[i].weight
    ensures SiftingUp(Swap(h, Parent(i), i), Parent(i))
  {
    var p := Parent(i);
    var h' := Swap(h, p, i);
    forall j | 0 < j < |h'| && j != p
      ensures h'[Parent(j)].weight <= h'[j].weight
    {
      if j == i {
      } else if Parent(j) == i {
      } else if Parent(j) == p {
        assert h[p].weight <= h[j].weight;
      } else {
        assert h'[j] == h[j];
      }
    }
    if p > 0 {
      forall j | 0 < j < |h'| && Parent(j) == p
        ensures h'[Parent(p)].weight <= h'[j].weight
      {
        assert h[Parent(p)].weight <= h[p].weight;
        if j != i {
          assert h[p].weight <= h[j].weight;
        }
      }
    }
  }

  /** `heapifyDown` (src/lib/huffman.ts:53-69): moves the element at `i`
      down, swapping with the lighter child (the left one on a tie) while
      that child is strictly lighter. */
  function SiftDown(h: seq<Tree>, i: nat): (r: seq<Tree>)
    requires SiftingDown(h, i)
    ensures IsMinHeap(r)
    ensures multiset(r) == multiset(h)
    ensures |r| == |h|
    decreases |h| - i
  {
    var left := 2 * i + 1;
    var right := 2 * i + 2;
    if left >= |h| then
      NoChildrenIsHeap(h, i);
      h
    else
      var smaller := if right < |h| && h[right].weight < h[left].weight then right else left;
      if h[i].weight <= h[smaller].weight then
        SettledIsHeap(h, i, smaller);
        h
      else
        SwapDownKeepsSifting(h, i, smaller);
        SiftDown(Swap(h, i, smaller), smaller)
  }

  lemma NoChildrenIsHeap(h: seq<Tree>, i: nat)
    requires SiftingDown(h, i) && 2 * i + 1 >= |h|
    ensures IsMinHeap(h)
  {
    forall j | 0 < j < |h| ensures h[Parent(j)].weight <= h[j].weight {
      assert Parent(j) != i;
    }
  }

  lemma SettledIsHeap(h: seq<Tree>, i: nat, s: nat)
    requires SiftingDown(h, i) && 2 * i + 1 < |h|
    requires s == 2 * i + 1 || s == 2 * i + 2
    requires s < |h| && h[i].weight <= h[s].weight
    requires h[s].weight <= h[2 * i + 1].weight
    requires 2 * i + 2 < |h| ==> h[s].weight <= h[2 * i + 2].weight
    ensures IsMinHeap(h)
  {
    forall j | 0 < j < |h| ensures h[Parent(j)].weight <= h[j].weight {
      if Parent(j) == i {
        assert j == 2 * i + 1 || j == 2 * i + 2;
      }
    }
  }

  lemma SwapDownKeepsSifting(h: seq<Tree>, i: nat, s: nat)
    requires SiftingDown(h, i) && 2 * i + 1 < |h|
    requires s == 2 * i + 1 || s == 2 * i + 2
    requires s < |h| && h[i].weight > h[s].weight
    requires h[s].weight <= h[2 * i + 1].weight
    requires 2 * i + 2 < |h| ==> h[s].weight <= h[2 * i + 2].weight
    ensures SiftingDown(Swap(h, i, s), s)
  {
    SwapDownOrder(h, i, s);
    SwapDownBelow(h, i, s);
  }

  /** After the swap, the order holds everywhere except below `s`, ... */
  lemma SwapDownOrder(h: seq<Tree>, i: nat, s: nat)
    requires SiftingDown(h, i) && 2 * i + 1 < |h|
    requires s == 2 * i + 1 || s == 2 * i + 2
    requires s < |h| && h[i].weight > h[s].weight
    requires h[s].weight <= h[2 * i + 1].weight
    requires 2 * i + 2 < |h| ==> h[s].weight <= h[2 * i + 2].weight
    ensures var h' := Swap(h, i, s);
      forall j :: 0 < j < |h'| && Parent(j) != s ==> h'[Parent(j)].weight <= h'[j].weight
  {
    var h' := Swap(h, i, s);
    assert Parent(s) == i;
    forall j | 0 < j < |h'| && Parent(j) != s
      ensures h'[Parent(j)].weight <= h'[j].weight
    {
      if Parent(j) == i {
        assert j == 2 * i + 1 || j == 2 * i + 2;
      } else if j == i {
        assert h[Parent(i)].weight <= h[s].weight;
      } else if j == s {
      } else {
        assert h'[j] == h[j];
      }
    }
  }

  /** ... and the new parent of `s` is no heavier than the children of `s`. */
  lemma SwapDownBelow(h: seq<Tree>, i: nat, s: nat)
    requires SiftingDown(h, i) && 2 * i + 1 < |h|
    requires s == 2 * i + 1 || s == 2 * i + 2
    requires s < |h| && h[i].weight > h[s].weight
    ensures var h' := Swap(h, i, s);
      forall j :: 0 < j < |h'| && Parent(j) == s ==> h'[Parent(s)].weight <= h'[j].weight
  {
    var h' := Swap(h, i, s);
    assert Parent(s) == i;
    forall j | 0 < j < |h'| && Parent(j) == s
      ensures h'[Parent(s)].weight <= h'[j].weight
    {
      assert Parent(j) != i;
      assert h[s].weight <= h[j].weight;
    }
  }

  /** In a heap the root is no heavier than any element. */
  lemma {:induction false} RootIsMinimal(h: seq<Tree>, j: nat)
    requires IsMinHeap(h) && j < |h|
    ensures h[0].weight <= h[j].weight
    decreases j
  {
    if j > 0 {
      RootIsMinimal(h, Parent(j));
    }
  }

  /** `enqueue` (src/lib/huffman.ts:24-27): push, then sift the new last
      element up. */
  function Enqueue(h: seq<Tree>, t: Tree): (r: seq<Tree>)
    requires IsMinHeap(h)
    ensures IsMinHeap(r)
    ensures multiset(r) == multiset(h) + multiset{t}
    ensures |r| == |h| + 1
  {
    var pushed := h + [t];
    assert SiftingUp(pushed, |h|) by {
      forall j | 0 < j < |pushed| && j != |h|
        ensures pushed[Parent(j)].weight <= pushed[j].weight
      {
        assert pushed[j] == h[j] && pushed[Parent(j)] == h[Parent(j)];
      }
    }
    SiftUp(pushed, |h|)
  }

  /** `dequeue` (src/lib/huffman.ts:29-37): `None` (the source's `null`) on
      an empty heap; otherwise the root, with the last element moved to the
      root and sifted down. */
  function Dequeue(h: seq<Tree>): (r: (Option<Tree>, seq<Tree>))
    requires IsMinHeap(h)
    ensures IsMinHeap(r.1)
    ensures |h| == 0 ==> r.0 == None && r.1 == []
    ensures |h| == 1 ==> r.0 == Some(h[0]) && r.1 == []
    ensures |h| > 0 ==> r.0.Some? && multiset(h) == multiset(r.1) + multiset{r.0.value}
    ensures |h| > 0 ==> forall j :: 0 <= j < |h| ==> r.0.value.weight <= h[j].weight
    ensures |h| > 0 ==> |r.1| == |h| - 1
  {
    if |h| == 0 then (None, h)
    else if |h| == 1 then
      MinimumFirst(h);
      (Some(h[0]), [])
    else
      var min := h[0];
      var moved := [h[|h| - 1]] + h[1..|h| - 1];
      LastToRoot(h);
      MinimumFirst(h);
      (Some(min), SiftDown(moved, 0))
  }

  /** Moving the last element to the root leaves a heap that only needs
      sifting down from the root, with the old root taken out. */
  lemma LastToRoot(h: seq<Tree>)
    requires IsMinHeap(h) && |h| > 1
    ensures SiftingDown([h[|h| - 1]] + h[1..|h| - 1], 0)
    ensures multiset(h) == multiset([h[|h| - 1]] + h[1..|h| - 1]) + multiset{h[0]}
  {
    var moved := [h[|h| - 1]] + h[1..|h| - 1];
    assert h == [h[0]] + h[1..|h| - 1] + [h[|h| - 1]];
    forall j | 0 < j < |moved| && Parent(j) != 0
      ensures moved[Parent(j)].weight <= moved[j].weight
    {
      assert moved[j] == h[j] && moved[Parent(j)] == h[Parent(j)];
    }
  }

  lemma MinimumFirst(h: seq<Tree>)
    requires IsMinHeap(h) && |h| > 0
    ensures forall j :: 0 <= j < |h| ==> h[0].weight <= h[j].weight
  {
    forall j | 0 <= j < |h| ensures h[0].weight <= h[j].weight {
      RootIsMinimal(h, j);
    }
  }

  /** Equal weights do not come out in insertion order: of three trees of
      one weight enqueued in the order a, b, c, the first two dequeued are
      a and c. */
  lemma TiesLeaveOutOfOrder(a: Tree, b: Tree, c: Tree)
    requires a.weight == b.weight == c.weight
    ensures var q := Enqueue(Enqueue(Enqueue([], a), b), c);
      && Dequeue(q).0 == Some(a)
      && Dequeue(Dequeue(q).1).0 == Some(c)
  {
    var empty: seq<Tree> := [];
    assert Enqueue(empty, a) == [a] by {
      assert SiftUp([a], 0) == [a];
    }
    EnqueueNoLighter([a], b);
    assert [a] + [b] == [a, b];
    EnqueueNoLighter([a, b], c);
    assert [a, b] + [c] == [a, b, c];
    DequeueOfThree(a, b, c);
    DequeueOfTwo(c, b);
  }

  /** A tree no lighter than its future parent stays at the end. */
  lemma EnqueueNoLighter(h: seq<Tree>, t: Tree)
    requires IsMinHeap(h) && |h| > 0 && h[Parent(|h|)].weight <= t.weight
    ensures Enqueue(h, t) == h + [t]
  {
    assert (h + [t])[Parent(|h|)] == h[Parent(|h|)];
  }

  lemma DequeueOfThree(a: Tree, b: Tree, c: Tree)
    requires a.weight <= b.weight && a.weight <= c.weight && c.weight <= b.weight
    ensures IsMinHeap([a, b, c])
    ensures Dequeue([a, b, c]) == (Some(a), [c, b])
  {
    assert [[a, b, c][2]] + [a, b, c][1..2] == [c, b];
    assert SiftDown([c, b], 0) == [c, b];
  }

  lemma DequeueOfTwo(a: Tree, b: Tree)
    requires a.weight <= b.weight
    ensures IsMinHeap([a, b])
    ensures Dequeue([a, b]) == (Some(a), [b])
  {
    assert [[a, b][1]] + [a, b][1..1] == [b];
    assert SiftDown([b], 0) == [b];
  }
}

=== FILE: tree.dfy ===
/** `HuffmanNode` (src/lib/huffman.ts:2-14) as an inductive tree, together
    with the decoder's one-step cursor movement, which is the meaning every
    code is checked against. */
module HuffmanTree {
  import opened Optional

  /** A leaf carries a symbol and its count; an internal node carries no
      symbol, always has a left child and has a right child except in the
      synthetic root built for a text with one distinct symbol. Both variants
      carry the `frequency` the priority queue orders by. */
  datatype Tree =
    | Leaf(symbol: char, weight: nat)
    | Node(weight: nat, left: Tree, right: Option<Tree>)

  /** The (symbol, count) pairs of the leaves, left to right. */
  function LeafPairs(t: Tree): seq<(char, nat)> {
    match t
    case Leaf(c, w) => [(c, w)]
    case Node(_, l, None) => LeafPairs(l)
    case Node(_, l, Some(r)) => LeafPairs(l) + LeafPairs(r)
  }

  /** The leaf symbols, left to right. */
  function Symbols(t: Tree): seq<char> {
    match t
    case Leaf(c, _) => [c]
    case Node(_, l, None) => Symbols(l)
    case Node(_, l, Some(r)) => Symbols(l) + Symbols(r)
  }

  /** Every internal node weighs what its children weigh together. */
  predicate WellWeighted(t: Tree) {
    match t
    case Leaf(_, _) => true
    case Node(w, l, None) => w == l.weight && WellWeighted(l)
    case Node(w, l, Some(r)) => w == l.weight + r.weight && WellWeighted(l) && WellWeighted(r)
  }

  /** Every internal node has both children (a tree built by merges only). */
  predicate Full(t: Tree) {
    match t
    case Leaf(_, _) => true
    case Node(_, _, None) => false
    case Node(_, l, Some(r)) => Full(l) && Full(r)
  }

  /** No symbol labels two leaves. */
  predicate UniqueSymbols(t: Tree) {
    forall c :: multiset(Symbols(t))[c] <= 1
  }

  /** One move of the decoder's cursor (src/lib/huffman.ts:176-180): the
      character '0' goes left and every other character goes right. `None`
      stands for the missing child the source dereferences with `!`, which
      makes the following `current.char` throw. */
  function Step(t: Tree, bit: char): (r: Option<Tree>)
    ensures r.Some? ==> t.Node?
  {
    match t
    case Leaf(_, _) => None
    case Node(_, l, right) => if bit == '0' then Some(l) else right
  }

  /** Follows a whole path of moves from `t`. */
  function Walk(t: Tree, path: string): Option<Tree>
    decreases |path|
  {
    if |path| == 0 then Some(t)
    else
      match Step(t, path[0])
      case None => None
      case Some(next) => Walk(next, path[1..])
  }

  /** Following `path` from `t` ends on a leaf labelled `c`. */
  predicate LandsOn(t: Tree, path: string, c: char) {
    var end := Walk(t, path);
    end.Some? && end.value.Leaf? && end.value.symbol == c
  }

  /** `p` is a prefix of `q`. */
  predicate IsPrefix(p: string, q: string) {
    |p| <= |q| && q[..|p|] == p
  }

  /** A path cannot continue past a leaf, so a path that lands on a leaf is
      no proper prefix of another path that lands on a leaf: the paths to
      leaves form a prefix code, and equal paths land on the same symbol. */
  lemma {:induction false} LandingPathsArePrefixFree(t: Tree, p: string, q: string, c: char, d: char)
    requires LandsOn(t, p, c) && LandsOn(t, q, d)
    requires IsPrefix(p, q)
    ensures p == q && c == d
    decreases |p|
  {
    if |p| == 0 {
    } else {
      assert q[0] == p[0];
      var next := Step(t, p[0]).value;
      assert Walk(t, p) == Walk(next, p[1..]);
      assert Walk(t, q) == Walk(next, q[1..]);
      assert q[1..][..|p[1..]|] == p[1..];
      LandingPathsArePrefixFree(next, p[1..], q[1..], c, d);
      assert p == [p[0]] + p[1..];
      assert q == [q[0]] + q[1..];
    }
  }

  /** The symbols of a tree without duplicate symbols are split between the
      two subtrees of its root, each again without duplicates. */
  lemma UniqueChildren(t: Tree)
    requires t.Node? && UniqueSymbols(t)
    ensures UniqueSymbols(t.left)
    ensures t.right.Some? ==> UniqueSymbols(t.right.value)
    ensures t.right.Some? ==> forall c :: c in Symbols(t.left) ==> c !in Symbols(t.right.value)
  {
    match t.right
    case None =>
      assert Symbols(t) == Symbols(t.left);
    case Some(r) =>
      assert multiset(Symbols(t)) == multiset(Symbols(t.left)) + multiset(Symbols(r));
      forall c
        ensures multiset(Symbols(t.left))[c] <= 1 && multiset(Symbols(r))[c] <= 1
        ensures c in Symbols(t.left) ==> c !in Symbols(r)
      {
        assert multiset(Symbols(t))[c] == multiset(Symbols(t.left))[c] + multiset(Symbols(r))[c];
      }
  }
}

=== FILE: tree_builder.dfy ===
/** `buildHuffmanTree` (src/lib/huffman.ts:95-124): every table entry
    becomes a leaf in the priority queue, in the table's iteration order;
    then the two lightest trees are repeatedly merged under a new internal
    node (first dequeued on the left) until one tree remains. A table with a
    single entry gets a synthetic root whose only child is that leaf. */
module TreeBuilder {
  import opened Optional
  import opened OrderedMap
  import opened HuffmanTree
  import opened PriorityQueue
  import opened Frequency
  import opened Forest

  /** A tree produced by merges: weights add up and every internal node has
      two children. */
  predicate Merged(t: Tree) {
    WellWeighted(t) && Full(t)
  }

  /** The queue `q` holds one leaf per entry of `entries` and nothing else:
      its leaves, symbols and weight are those of the table. */
  predicate LeavesOf(entries: FrequencyTable, q: seq<Tree>) {
    && ForestPairs(q) == multiset(entries)
    && ForestSymbols(q) == multiset(KeysOf(entries))
    && ForestWeight(q) == Total(entries)
    && forall t :: t in q ==> t.Leaf?
  }

  /** The queue after enqueueing a leaf for every entry (lines 99-101). */
  function LeafQueue(entries: FrequencyTable): (q: seq<Tree>)
    ensures IsMinHeap(q) && |q| == |entries|
    ensures LeavesOf(entries, q)
    ensures |entries| == 1 ==> q == [Leaf(entries[0].0, entries[0].1)]
    decreases |entries|
  {
    if |entries| == 0 then []
    else
      var e := entries[|entries| - 1];
      var before := LeafQueue(entries[..|entries| - 1]);
      var q := Enqueue(before, Leaf(e.0, e.1));
      LeafQueueStep(entries, before, q);
      if |entries| == 1 then
        SingletonQueue(q, Leaf(e.0, e.1));
        q
      else
        q
  }

  /** Enqueueing the leaf of the last entry extends the queue of the other
      entries to the queue of all of them. */
  lemma LeafQueueStep(entries: FrequencyTable, before: seq<Tree>, q: seq<Tree>)
    requires |entries| > 0
    requires LeavesOf(entries[..|entries| - 1], before)
    requires var e := entries[|entries| - 1]; multiset(q) == multiset(before) + multiset{Leaf(e.0, e.1)}
    ensures LeavesOf(entries, q)
  {
    var e := entries[|entries| - 1];
    var leaf := Leaf(e.0, e.1);
    EnqueueKeepsForest(before, leaf, q);
    LeafQueueSymbols(entries, ForestSymbols(before), ForestSymbols(q));
    LeafQueuePairs(entries, ForestPairs(before), ForestPairs(q));
    EnqueueMembers(before, leaf, q);
  }

  /** A queue holding exactly one tree is that tree alone. */
  lemma SingletonQueue(q: seq<Tree>, t: Tree)
    requires multiset(q) == multiset{t}
    ensures q == [t]
  {
    assert |q| == |multiset(q)| == 1;
    assert q[0] in multiset(q);
  }

  /** The symbols of the queue grow by the key of each enqueued entry. */
  lemma LeafQueueSymbols(entries: FrequencyTable, before: multiset<char>, after: multiset<char>)
    requires |entries| > 0
    requires before == multiset(KeysOf(entries[..|entries| - 1]))
    requires after == before + multiset(Symbols(Leaf(entries[|entries| - 1].0, entries[|entries| - 1].1)))
    ensures after == multiset(KeysOf(entries))
  {
    var init := entries[..|entries| - 1];
    assert KeysOf(entries) == KeysOf(init) + [entries[|entries| - 1].0];
  }

  /** The leaves of the queue grow by each enqueued entry. */
  lemma LeafQueuePairs(entries: FrequencyTable, before: multiset<(char, nat)>, after: multiset<(char, nat)>)
    requires |entries| > 0
    requires before == multiset(entries[..|entries| - 1])
    requires after == before + multiset(LeafPairs(Leaf(entries[|entries| - 1].0, entries[|entries| - 1].1)))
    ensures after == multiset(entries)
  {
    assert entries == entries[..|entries| - 1] + [entries[|entries| - 1]];
  }

  /** The merge loop (lines 112-121). */
  function MergeAll(pq: seq<Tree>): (r: seq<Tree>)
    requires IsMinHeap(pq)
    requires forall t :: t in pq ==> Merged(t)
    ensures IsMinHeap(r)
    ensures |r| == if |pq| == 0 then 0 else 1
    ensures ForestPairs(r) == ForestPairs(pq)
    ensures ForestSymbols(r) == ForestSymbols(pq)
    ensures ForestWeight(r) == ForestWeight(pq)
    ensures forall t :: t in r ==> Merged(t)
    ensures |pq| >= 2 ==> r[0].Node?
    decreases |pq|
  {
    if |pq| <= 1 then pq
    else
      var first := Dequeue(pq);
      var second := Dequeue(first.1);
      var left := first.0.value;
      var right := second.0.value;
      var merged := Node(left.weight + right.weight, left, Some(right));
      var next := Enqueue(second.1, merged);
      MergeKeepsPairs(pq, first.1, second.1, next, left, right);
      MergeKeepsSymbols(pq, first.1, second.1, next, left, right);
      MergeKeepsWeight(pq, first.1, second.1, next, left, right);
      MergeKeepsMerged(pq, first.1, second.1, next, left, right);
      MergeAll(next)
  }

  /** Replacing the two dequeued trees by their merge keeps the leaves... */
  lemma MergeKeepsPairs(pq: seq<Tree>, rest1: seq<Tree>, rest2: seq<Tree>, next: seq<Tree>, left: Tree, right: Tree)
    requires multiset(pq) == multiset(rest1) + multiset{left}
    requires multiset(rest1) == multiset(rest2) + multiset{right}
    requires multiset(next) == multiset(rest2) + multiset{Node(left.weight + right.weight, left, Some(right))}
    ensures ForestPairs(next) == ForestPairs(pq)
  {
    var merged := Node(left.weight + right.weight, left, Some(right));
    var l, r, rest := multiset(LeafPairs(left)), multiset(LeafPairs(right)), ForestPairs(rest2);
    EnqueueKeepsForest(rest1, left, pq);
    EnqueueKeepsForest(rest2, right, rest1);
    EnqueueKeepsForest(rest2, merged, next);
    assert multiset(LeafPairs(merged)) == l + r;
    assert ForestPairs(pq) == (rest + r) + l;
    assert ForestPairs(next) == rest + (l + r);
  }

  /** ... their symbols ... */
  lemma MergeKeepsSymbols(pq: seq<Tree>, rest1: seq<Tree>, rest2: seq<Tree>, next: seq<Tree>, left: Tree, right: Tree)
    requires multiset(pq) == multiset(rest1) + multiset{left}
    requires multiset(rest1) == multiset(rest2) + multiset{right}
    requires multiset(next) == multiset(rest2) + multiset{Node(left.weight + right.weight, left, Some(right))}
    ensures ForestSymbols(next) == ForestSymbols(pq)
  {
    var merged := Node(left.weight + right.weight, left, Some(right));
    var l, r, rest := multiset(Symbols(left)), multiset(Symbols(right)), ForestSymbols(rest2);
    EnqueueKeepsForest(rest1, left, pq);
    EnqueueKeepsForest(rest2, right, rest1);
    EnqueueKeepsForest(rest2, merged, next);
    assert multiset(Symbols(merged)) == l + r;
    assert ForestSymbols(pq) == (rest + r) + l;
    assert ForestSymbols(next) == rest + (l + r);
  }

  /** ... and the total weight. */
  lemma MergeKeepsWeight(pq: seq<Tree>, rest1: seq<Tree>, rest2: seq<Tree>, next: seq<Tree>, left: Tree, right: Tree)
    requires multiset(pq) == multiset(rest1) + multiset{left}
    requires multiset(rest1) == multiset(rest2) + multiset{right}
    requires multiset(next) == multiset(rest2) + multiset{Node(left.weight + right.weight, left, Some(right))}
    ensures ForestWeight(next) == ForestWeight(pq)
  {
    EnqueueKeepsForest(rest1, left, pq);
    EnqueueKeepsForest(rest2, right, rest1);
    EnqueueKeepsForest(rest2, Node(left.weight + right.weight, left, Some(right)), next);
  }

  /** Replacing two merged trees by their merge keeps every tree merged. */
  lemma MergeKeepsMerged(pq: seq<Tree>, rest1: seq<Tree>, rest2: seq<Tree>, next: seq<Tree>, left: Tree, right: Tree)
    requires forall t :: t in pq ==> Merged(t)
    requires multiset(pq) == multiset(rest1) + multiset{left}
    requires multiset(rest1) == multiset(rest2) + multiset{right}
    requires multiset(next) == multiset(rest2) + multiset{Node(left.weight + right.weight, left, Some(right))}
    ensures forall t :: t in next ==> Merged(t)
  {
    var merged := Node(left.weight + right.weight, left, Some(right));
    EnqueueMembers(rest1, left, pq);
    EnqueueMembers(rest2, right, rest1);
    EnqueueMembers(rest2, merged, next);
    assert Merged(left) && Merged(right);
    assert Merged(merged);
  }

  /** `buildHuffmanTree`: `None` stands for the `null` the final `dequeue`
      returns on an empty table. */
  function BuildHuffmanTree(freq: FrequencyTable): (root: Option<Tree>)
    ensures root.None? <==> |freq| == 0
    ensures |freq| == 1 ==> root == Some(Node(freq[0].1, Leaf(freq[0].0, freq[0].1), None))
  {
    var pq := LeafQueue(freq);
    if |pq| == 1 then
      var node := Dequeue(pq).0.value;
      Some(Node(node.weight, node, None))
    else
      var last := MergeAll(pq);
      if |last| == 0 then None
      else Dequeue(last).0
  }

  /** The root is an internal node whose weights add up; with at least two
      symbols every internal node has two children. */
  lemma BuildHuffmanTreeShape(freq: FrequencyTable)
    requires |freq| > 0
    ensures var root := BuildHuffmanTree(freq).value;
      root.Node? && WellWeighted(root) && (|freq| >= 2 ==> Full(root))
  {
    var pq := LeafQueue(freq);
    if |pq| > 1 {
      var last := MergeAll(pq);
      assert last[0] in last;
    }
  }

  /** The leaves of the tree are exactly the entries of the table, and the
      root weighs the sum of the counts. */
  lemma BuildHuffmanTreeLeaves(freq: FrequencyTable)
    requires |freq| > 0
    ensures var root := BuildHuffmanTree(freq).value;
      && multiset(LeafPairs(root)) == multiset(freq)
      && multiset(Symbols(root)) == multiset(KeysOf(freq))
      && root.weight == Total(freq)
  {
    var pq := LeafQueue(freq);
    if |pq| == 1 {
      SingleEntryTree(freq);
    } else {
      LastTree(MergeAll(pq));
    }
  }

  /** The synthetic root over the leaf of a one-entry table. */
  lemma SingleEntryTree(freq: FrequencyTable)
    requires |freq| == 1
    ensures var t := Node(freq[0].1, Leaf(freq[0].0, freq[0].1), None);
      && WellWeighted(t)
      && multiset(LeafPairs(t)) == multiset(freq)
      && multiset(Symbols(t)) == multiset(KeysOf(freq))
      && t.weight == Total(freq)
  {
    assert freq == [freq[0]];
    assert KeysOf(freq) == [freq[0].0];
    assert freq[..0] == [];
  }

  /** The summaries of a queue holding one tree are that tree's. */
  lemma LastTree(last: seq<Tree>)
    requires |last| == 1
    ensures ForestPairs(last) == multiset(LeafPairs(last[0]))
    ensures ForestSymbols(last) == multiset(Symbols(last[0]))
    ensures ForestWeight(last) == last[0].weight
  {
    assert last[..0] == [];
  }

  /** The tree built for a non-empty text: its leaves are exactly the
      distinct symbols of the text, each once and weighted by its number of
      occurrences, and its root weighs the length of the text. */
  lemma HuffmanTreeOfText(text: string)
    requires |text| > 0
    ensures var root := BuildHuffmanTree(BuildFrequencyTable(text));
      && root.Some? && root.value.Node? && WellWeighted(root.value)
      && (forall c :: multiset(Symbols(root.value))[c] == if c in text then 1 else 0)
      && (forall p :: p in LeafPairs(root.value) ==> p.1 == multiset(text)[p.0])
      && root.value.weight == |text|
  {
    var freq := BuildFrequencyTable(text);
    var root := BuildHuffmanTree(freq).value;
    FrequencyEntries(text);
    TotalIsLength(text);
    assert text[0] in KeysOf(freq);
    BuildHuffmanTreeShape(freq);
    BuildHuffmanTreeLeaves(freq);
    forall c ensures multiset(Symbols(root))[c] == if c in text then 1 else 0 {
      DistinctKeysOnce(freq, c);
    }
    forall p | p in LeafPairs(root) ensures p.1 == multiset(text)[p.0] {
      assert p in multiset(freq);
    }
  }

  /** The tree built for a non-empty text has an internal root and lists
      each symbol of the text on exactly one leaf, and no other symbol. */
  lemma HuffmanTreeSymbols(text: string)
    requires |text| > 0
    ensures var root := BuildHuffmanTree(BuildFrequencyTable(text));
      && root.Some? && root.value.Node? && UniqueSymbols(root.value)
      && forall c :: c in Symbols(root.value) <==> c in text
  {
    var freq := BuildFrequencyTable(text);
    FrequencyEntries(text);
    assert text[0] in KeysOf(freq);
    BuildHuffmanTreeShape(freq);
    BuildHuffmanTreeLeaves(freq);
    var root := BuildHuffmanTree(freq).value;
    forall c ensures multiset(Symbols(root))[c] <= 1 && (c in Symbols(root) <==> c in text) {
      DistinctKeysOnce(freq, c);
      assert c in Symbols(root) <==> c in multiset(Symbols(root));
      assert c in KeysOf(freq) <==> c in multiset(KeysOf(freq));
    }
  }

  /** A key of a table without repeated keys is listed exactly once. */
  lemma {:induction false} DistinctKeysOnce(m: FrequencyTable, c: char)
    requires Valid(m)
    ensures multiset(KeysOf(m))[c] == if c in KeysOf(m) then 1 else 0
    decreases |m|
  {
    if |m| > 0 {
      var init := m[..|m| - 1];
      assert KeysOf(m) == KeysOf(init) + [m[|m| - 1].0];
      DistinctKeysOnce(init, c);
    }
  }
}
